=== FILE: README.md ===
# Country data service: a Dafny model

This project models the core of a small serverless service that collects country data.

- A request for a country (`fetch_country_data`) turns the name into a canonical key. It answers COMPLETED when a document is already stored. It answers PENDING when an earlier request is still in progress. Otherwise it writes a PENDING status row and sends one work message to a queue.
- A queue consumer (`handle_sqs_message`) calls the worker `fetch_and_save_country_data` on every message of a batch. The worker fetches the document upstream, stores it at most once per key, and writes a COMPLETED or FAILED status row.
- Two reads serve the stored document (`get_country_data`) and the newest status row (`check_operation_status`).
- A fixed-window counter kept in Redis throttles the three HTTP endpoints (`RateLimiter`).

State is immutable and every operation is a pure transition:

- The country table is a `map` from key to JSON document.
- The status table is a per-key sequence of rows, sorted by timestamp.
- The queue is a sequence of work items.
- Redis is a `map` from key to counter.

Effects that cannot be seen from the code become parameters:

- the clock reading (milliseconds);
- the upstream fetch, as a function from key to document-or-error;
- an error raised by the conditional put;
- an error raised by the COMPLETED status write;
- an error raised by the queue send;
- an error raised by a Redis call;
- whether Redis is reachable;
- whether a message deletion succeeds.

Modules:

- `Base`: `Option`, `Result`, and decimal rendering of counts.
- `Json`: documents and Python truthiness.
- `Names`: key standardization and name validation (`country_service.py`).
- `Db`: the two DynamoDB tables (`db_service.py`).
- `Coordinator`: `CountryService`.
- `Consumer`: `handle_sqs_message`, generic over the worker and its state.
- `Pipeline`: the consumer running the coordinator's worker on the messages the coordinator sends.
- `RateLimit`: `RateLimiter.request_is_limited` and the `limit()` wrapper.

## Behaviour of the code worth knowing

- **The error attribute of a status row.** A row stores `error` only when the text is non-empty (`if error:`, db_service.py:72). A FAILED row whose exception printed as "" has no error. `Db.NewEntry` follows this.
- **Status rows are not strictly append-only.** The newest-first query on `country` with `ScanIndexForward=False` (db_service.py:83-87) implies a table keyed by (country, timestamp); the key schema itself is not in the code. Under that key, a second row written in the same millisecond replaces the first, and a row with an older timestamp is filed before newer ones. `Db.PutEntry` models this. For a clock that has moved past the key's rows, the write is an append (`Db.PutFreshAppends`).
- **Which successes are deleted.** The handler deletes successes by hand only when some record failed (app.py:101-107). When all succeed, it returns and leaves deletion to the poller. `Consumer.Handle` follows this: with no failure, nothing is attempted.
- **No processed count.** The handler raises `BadRequestError("Failed to process {n} messages: …")` and returns nothing (app.py:116). The model records the failure count and the reasons.
- **Where names are validated.** `fetch_country_data` does not validate the name itself; the route decorator does, with `validate_country_name`. The model keeps the two apart (`Names.ValidateCountryName`, `Names.ValidNameStandardizes`).
- **A stored document can have no COMPLETED row.** The COMPLETED status write (country_service.py:56) sits inside the worker's `try`. When it raises, the document saved at line 54 stays stored, a FAILED row is written, and the worker returns false. `Coordinator.CompletedWriteFaultBreaksConsistency` shows the resulting state.

## Model

| member | source | states |
|---|---|---|
| Base.DecimalString | country-data-service/app.py:116 | The count in the aggregate message is written as a non-empty run of decimal digits with no leading zero |
| Base.DecimalRoundTrip | country-data-service/app.py:116 | Reading back the decimal text of a count gives the count |
| Json.Truthy | country-data-service/chalicelib/country_service.py:25 | A document is truthy exactly when it is none of None, False, 0, "", [] and {} |
| Names.Standardize | country-data-service/chalicelib/country_service.py:15-16 | The key has the name's length; each space becomes '-' and every other character is lower-cased; the key holds no space and no upper-case letter |
| Names.StandardizeFixesExactlyCanonical | country-data-service/chalicelib/country_service.py:15-16 | A name is its own key exactly when it holds no space and no upper-case letter |
| Names.StandardizeIdempotent | country-data-service/chalicelib/country_service.py:15-16 | Standardizing a key again yields the same key, so a key handed back by the service names the same country |
| Names.StandardizeExamples | country-data-service/chalicelib/country_service.py:15-16 | "United States" maps to "united-states", "North Korea" to "north-korea", "France" to "france" |
| Names.ValidateCountryName | country-data-service/chalicelib/country_service.py:86-88 | Answers true exactly when the name is longer than 3 characters and every character is a letter or '-' |
| Names.ValidCountryNameExamples | country-data-service/chalicelib/country_service.py:86-88 | "ab", "fr", "123", "france123" and "france!" are rejected; "france" and "costa-rica" are accepted |
| Names.ValidNameStandardizes | country-data-service/chalicelib/country_service.py:86-88 | A valid name has no space, so its key is its lower-case form, is non-empty and is itself valid |
| Db.SaveCountryData | country-data-service/chalicelib/db_service.py:33-48 | The conditional put stores the document only when the key is absent and answers whether it did; if an error is raised, nothing changes; status rows are untouched |
| Db.WriteOnce | country-data-service/chalicelib/db_service.py:36-45 | After a first save succeeds, a second save of any document under the key answers false and leaves the first document in place |
| Db.StoredDocumentIsFinal | country-data-service/chalicelib/db_service.py:36-45 | Once a key holds a document, no save changes what is read back for it |
| Db.GetCountryData | country-data-service/chalicelib/db_service.py:50-59 | The stored document is returned when the key has one, and None otherwise (numbers as stored, not converted to floats) |
| Db.PutEntry | country-data-service/chalicelib/db_service.py:74 | A put on the (country, timestamp) key: the new row is present; a row at the same timestamp is replaced; every other row is kept; the log stays sorted and grows by at most one |
| Db.PutFreshAppends | country-data-service/chalicelib/db_service.py:66-74 | When the timestamp is later than every row of the key, the put appends at the end |
| Db.PutEntryCommutes | country-data-service/chalicelib/db_service.py:74 | Two puts at different timestamps give the same table in either order |
| Db.NewestIsLast | country-data-service/chalicelib/db_service.py:83-91 | In a non-empty sorted log the newest row, the one a descending query returns first, is exactly the last row |
| Db.NewEntry | country-data-service/chalicelib/db_service.py:66-73 | The row carries the key, the clock reading and the status; it carries an error exactly when the error text is non-empty |
| Db.SaveOperationStatus | country-data-service/chalicelib/db_service.py:64-76 | Countries and other keys' rows are unchanged; the key's log grows by at most one; with a clock past the key's rows, the new row is appended; rows stay filed under their own country |
| Db.SaveKeepsRowsAtOtherTimestamps | country-data-service/chalicelib/db_service.py:64-76 | After a status write, the key's rows are the new row plus exactly its old rows at other timestamps |
| Db.GetOperationStatus | country-data-service/chalicelib/db_service.py:81-94 | None exactly when the key has no row; otherwise a row with the greatest timestamp |
| Db.IsOperationInProgress | country-data-service/chalicelib/db_service.py:99-101 | True exactly when the key has rows and its newest row is PENDING |
| Db.CurrentStatusAfterFreshSave | country-data-service/chalicelib/db_service.py:64-101 | After a write with a fresh clock, the newest row is the one written, and the key is in progress exactly when that row is PENDING |
| Db.SavesCommute | country-data-service/chalicelib/db_service.py:64-76 | Two status writes for one key at different timestamps give the same table in either order |
| Db.LatestTimestampWins | country-data-service/chalicelib/db_service.py:81-94 | Of two status writes, the one with the later timestamp is the current status, whichever was written last |
| Coordinator.HasData | country-data-service/chalicelib/country_service.py:24-25 | A key has data exactly when a document is stored for it and that document is not one of Python's falsy values |
| Coordinator.FetchCountryData | country-data-service/chalicelib/country_service.py:22-44 | The answer names the key; it is COMPLETED exactly when truthy data is stored, and any other answer is PENDING; the state changes only when there is no data and nothing in progress; in that case a PENDING row is written, then either one work item for the key is queued and PENDING answered, or the send's error is raised and nothing is queued; an error is raised only by that send; documents and other keys are untouched |
| Coordinator.RequestAfterCompletionIsFree | country-data-service/chalicelib/country_service.py:24-27 | With truthy data stored, a request answers COMPLETED and changes nothing |
| Coordinator.RequestInProgressIsDeduplicated | country-data-service/chalicelib/country_service.py:29-31 | With no data and a PENDING current status, a request answers PENDING and changes nothing |
| Coordinator.RequestEnqueuesOnce | country-data-service/chalicelib/country_service.py:33-44 | Otherwise a request answers PENDING, appends exactly one PENDING row and one work item for the key, and leaves the key in progress |
| Coordinator.BackToBackRequestsEnqueueAtMostOnce | country-data-service/chalicelib/country_service.py:22-44 | A second request right after a first changes nothing and gets the same answer; together they send at most one message |
| Coordinator.RequestAfterFailureRetries | country-data-service/chalicelib/country_service.py:29-44 | With no data and a FAILED current status, a new request sends a new work item |
| Coordinator.SendFaultLeavesKeyPending | country-data-service/chalicelib/country_service.py:35-40 | If the queue send fails after the PENDING row is written, no item is queued and every later request answers PENDING without sending one |
| Coordinator.FetchAndSaveCountryData | country-data-service/chalicelib/country_service.py:48-63 | The worker answers true exactly when the fetch, the save and the COMPLETED write all succeed; once the fetch and the save succeed, the document is stored if the key had none, even when the COMPLETED write then raises; otherwise documents are unchanged; the key gains exactly one row, COMPLETED or FAILED with the first error, when the clock is fresh; other keys and the queue are untouched |
| Coordinator.WorkerSuccessCompletes | country-data-service/chalicelib/country_service.py:53-59 | A successful fetch stores the document when the key had none and makes COMPLETED the current status, also when a document was already stored |
| Coordinator.WorkerFailureRecordsError | country-data-service/chalicelib/country_service.py:60-63 | A failed fetch stores nothing and makes FAILED, carrying the non-empty error text, the current status |
| Coordinator.WorkerSaveFaultRecordsError | country-data-service/chalicelib/country_service.py:54-63 | An error from the save makes FAILED with that error the current status and stores nothing |
| Coordinator.WorkerCompletedWriteFaultKeepsDocument | country-data-service/chalicelib/country_service.py:53-63 | When the COMPLETED write raises, the worker answers false, the document saved just before stays stored, and FAILED with the write's error becomes the current status |
| Coordinator.RedeliveredFailureShadowsStoredData | country-data-service/chalicelib/country_service.py:48-63 | A redelivered message whose fetch fails makes FAILED current although the document stays stored and served, and later requests still answer COMPLETED |
| Coordinator.GetCountryData | country-data-service/chalicelib/country_service.py:65-75 | The stored document when it is truthy, otherwise NotFound "Country data for '<key>' not found" |
| Coordinator.CheckOperationStatus | country-data-service/chalicelib/country_service.py:77-84 | The newest row when the key has one, otherwise NotFound "No operation found for country '<key>'" |
| Coordinator.RequestPreservesConsistency | country-data-service/chalicelib/country_service.py:22-44 | When the request's clock reading is later than every row of its key, a request keeps rows filed under their own country, every stored document backed by a COMPLETED or FAILED row, and every queued key canonical; it also keeps every stored document backed by a COMPLETED row |
| Coordinator.WorkerPreservesConsistency | country-data-service/chalicelib/country_service.py:48-63 | When the worker's clock reading is later than every row of its key, then whichever step raises, the worker keeps every stored document backed by a COMPLETED or FAILED row; when the COMPLETED write does not raise, it also keeps every stored document backed by a COMPLETED row |
| Coordinator.CompletedWriteFaultBreaksConsistency | country-data-service/chalicelib/country_service.py:53-63 | On an empty service, a raising COMPLETED write leaves "france" served with only a FAILED row: no COMPLETED row backs the stored document |
| Coordinator.FailedRowReplacesSameMillisecond | country-data-service/chalicelib/db_service.py:64-74 | A FAILED row put at the timestamp of a key's only row replaces that row, because the table's key is (country, timestamp) |
| Coordinator.FranceCompletedAt | country-data-service/chalicelib/country_service.py:48-58 | On an empty service, a successful worker run for "france" stores the document and one COMPLETED row, and the service is consistent |
| Coordinator.FailureAtSameMillisecond | country-data-service/chalicelib/country_service.py:48-63 | A failed fetch in the same millisecond as a stored key's only COMPLETED row replaces it with FAILED: the service stays settled but is no longer consistent |
| Coordinator.SameMillisecondRedeliveryBreaksConsistency | country-data-service/chalicelib/country_service.py:48-63 | "france" completed and then redelivered with a failing fetch in the same millisecond: the document is still served, but no COMPLETED row backs it |
| Coordinator.FirstRequestForFrance | country-data-service/chalicelib/country_service.py:22-44 | "France" on an empty service answers PENDING for "france", writes one PENDING row and queues one item |
| Coordinator.FranceFetchedAndServed | country-data-service/chalicelib/country_service.py:48-84 | After the worker fetches a document for "france", reads of "France" serve it and report COMPLETED |
| Coordinator.FranceNotFoundThenRetried | country-data-service/chalicelib/country_service.py:22-63 | When the upstream reports not found, the status reads FAILED with the message, and a new request queues again |
| Consumer.ParseBody | country-data-service/app.py:73-81 | The worker is called exactly when the body is an object with a non-empty country, and on that country; otherwise the reason is "Invalid JSON: " and the decoder's message for a bad body, the "Unexpected error: '<type>' object has no attribute 'get'" text for a non-object, and "Missing 'country' key in message" for an object with no or an empty country |
| Consumer.Judge | country-data-service/app.py:85-99 | A record succeeds exactly when the worker returns true; otherwise the reason is "Failed to process data for <country>" when it returned false, the ValueError's own message, or "Unexpected error: " and the message of any other exception |
| Consumer.Step | country-data-service/app.py:72-99 | Each verdict is about its own record; a rejected body fails with the parse reason and leaves the worker's state untouched; a dispatched body calls the worker once on its country, and the verdict is the judgement of that call's outcome and the state is the one the call left |
| Consumer.Process | country-data-service/app.py:71-99 | One verdict per record |
| Consumer.DeleteAll | country-data-service/app.py:103-107 | A receipt ends up deleted exactly when it was attempted and the deletion succeeded; a deletion that raises a client error does not stop the others |
| Consumer.Handle | country-data-service/app.py:68-116 | The verdicts and final worker state are those of the record loop, so verdicts align with the records; an error is raised exactly when some record failed, and it counts the failures and carries every failure's reason, in batch order; only then are deletions attempted, for exactly the successes' receipts in batch order |
| Consumer.VerdictFromPrefixState | country-data-service/app.py:71-99 | The verdict of the i-th record is that record's own step, taken from the worker state all earlier records left |
| Consumer.DispatchedVerdict | country-data-service/app.py:71-99 | A record whose body names a country is judged on the worker's answer for that country, called from the state the earlier records left |
| Consumer.ProcessKeepsRecords | country-data-service/app.py:71-99 | The verdicts' records are the batch, in order |
| Consumer.Successes | country-data-service/app.py:85-87 | The successes and the failures together are exactly as many as the verdicts |
| Consumer.SuccessMembership | country-data-service/app.py:85-87 | A record is among the successes exactly when its verdict is a success |
| Consumer.Failures | country-data-service/app.py:88-99 | Every entry of the failures is a failing verdict, and there are no more failures than verdicts |
| Consumer.FailureMembership | country-data-service/app.py:88-99 | A verdict is among the failures exactly when it is a failing verdict of the batch |
| Consumer.SuccessesAndFailuresPartition | country-data-service/app.py:71-99 | Successes and failures together are the batch as a multiset: each record is in exactly one of them |
| Consumer.RejectedRecordsSkipWorker | country-data-service/app.py:78-99 | A record with a rejected body fails with the parse reason wherever it sits in the batch |
| Consumer.AllRejectedLeavesStateUnchanged | country-data-service/app.py:72-99 | A batch of rejected bodies never changes the worker's state |
| Consumer.ProcessSplits | country-data-service/app.py:71-99 | Processing a batch equals processing a prefix, then the rest from the state the prefix left; one record's failure does not stop the others |
| Consumer.VerdictIsLocal | country-data-service/app.py:71-99 | With a stateless worker, a record's verdict depends on that record alone |
| Consumer.FailedReceiptsAreNeverDeleted | country-data-service/app.py:101-107 | When receipts are distinct, a failed record's receipt is never deleted |
| Consumer.AggregateHeader | country-data-service/app.py:116 | The header of the raised message, "Failed to process {n} messages", starts "Failed to process ", ends " messages", and the digits between read back as the failure count; the ": " and the JSON list of reasons that follow it are carried by `Consumer.Handle`'s reasons |
| Consumer.MalformedMiddleRecord | country-data-service/app.py:71-116 | A batch with invalid JSON in the middle fails only that record, raises a count of 1, and attempts to delete the other two receipts |
| Consumer.SecondRecordOutcome | country-data-service/app.py:71-116 | For "france" then "germany" with the worker succeeding on the first, the second verdict is the one the worker's outcome earns; when it fails, one failure is counted with its reason and only the first receipt is attempted and deleted |
| Consumer.WorkerRaisesOnSecond | country-data-service/app.py:97-116 | When the worker raises on the second of two records, the reason carries the error text, one failure is counted, and only the first receipt is deleted |
| Consumer.WorkerFailsOnSecond | country-data-service/app.py:85-90 | When the worker answers false on "germany" after succeeding on "france", the one failure's reason is "Failed to process data for germany" and only "receipt1" is attempted and deleted |
| Consumer.MissingCountryIsRejected | country-data-service/app.py:78-81 | A body with no usable country fails with "Missing 'country' key in message" and the worker is not called |
| Consumer.SingleRecordBatch | country-data-service/app.py:68-119 | A one-record batch raises exactly when the record fails, never deletes anything, and leaves the state its step left |
| Pipeline.QueuedKeyDispatchesToItself | country-data-service/app.py:73-81 | The body a queued item carries parses back to a worker call on the same key, unless the key is empty |
| Pipeline.ServiceWorker | country-data-service/app.py:85 | The service's worker, under any fetch and any save or COMPLETED-write errors, never raises, never touches the queue, and moves the clock on by one |
| Pipeline.WorkerKeepsClockAhead | country-data-service/chalicelib/db_service.py:66 | A worker call at the current clock reading, followed by a tick, keeps the clock past every row |
| Pipeline.RequestKeepsClockAhead | country-data-service/chalicelib/db_service.py:66 | A request at the current clock reading, followed by a tick, keeps the clock past every row |
| Pipeline.BatchPreservesConsistency | country-data-service/app.py:71-99 | A whole batch run by the handler, starting from a clock later than every row and with each worker call one millisecond after the last, under any fetch and save errors, sends no message and keeps every stored document backed by a COMPLETED or FAILED row; when no COMPLETED write raises, it keeps every stored document backed by a COMPLETED row |
| Pipeline.DeliveredItemCompletes | country-data-service/app.py:78-87 | A queued item delivered with a successful fetch succeeds; its key then holds a document, the fetched one if it had none, and the status read for it is COMPLETED at the delivery's clock reading |
| Pipeline.FranceEndToEnd | country-data-service/app.py:68-119 | "France" requested on an empty service queues one item for "france"; delivered as a one-record batch with an upstream returning a document, nothing is raised or deleted, "France" is served that document, and its status is COMPLETED |
| RateLimit.RequestIsLimited | country-data-service/chalicelib/rate_limiter.py:57-79 | A request is limited exactly when Redis is reachable, the read succeeds and the counter is a number at or above the limit, and then nothing changes; otherwise an absent counter starts at 1 with the window's expiry, a numeric counter below the limit goes up by exactly one unless the increment raises, a non-numeric value is left as it is, and any raising call allows the request; only the request's own key changes and its expiry is never reset |
| RateLimit.Expire | country-data-service/chalicelib/rate_limiter.py:66 | When the expiry passes, the counter is gone and no other key changes |
| RateLimit.RunWindow | country-data-service/chalicelib/rate_limiter.py:57-79 | Of n requests in a window, at most n are allowed, and only the window's key changes |
| RateLimit.WindowFromCount | country-data-service/chalicelib/rate_limiter.py:69-76 | From a counter at c, n requests allow min(n, max(0, limit - c)) and the counter ends at c plus that number with its expiry unchanged |
| RateLimit.WindowAllowsExactlyLimit | country-data-service/chalicelib/rate_limiter.py:64-76 | In a fresh window with a limit of at least one, exactly min(n, limit) of n requests are allowed, and the counter never exceeds the limit |
| RateLimit.NonPositiveLimitAllowsOne | country-data-service/chalicelib/rate_limiter.py:64-71 | With a limit of zero or less, the first request of each window is still allowed, and only that one |
| RateLimit.ExpireStartsNewWindow | country-data-service/chalicelib/rate_limiter.py:64-67 | After expiry, the next request is allowed and the counter restarts at 1 with the full window |
| RateLimit.SourceIp | country-data-service/chalicelib/rate_limiter.py:48 | The caller is the identity's sourceIp when present, and "unknown" otherwise |
| RateLimit.Limit | country-data-service/chalicelib/rate_limiter.py:38-53 | With no client or no rule for the endpoint, the view is called and nothing changes; otherwise it raises "Rate Limit Exceeded." exactly when the caller's counter for the endpoint is at or above the endpoint's limit; the store afterwards is the one `RateLimit.RequestIsLimited` leaves for that counter, so an allowed call is counted; only that counter changes |
| RateLimit.ThrottleKey | country-data-service/chalicelib/rate_limiter.py:49 | The counter key is "throttling-", the caller, '-', the endpoint: each part reads back at its fixed offset |
| RateLimit.ThrottleKeyInjective | country-data-service/chalicelib/rate_limiter.py:49 | When no address contains '-', distinct (caller, endpoint) pairs get distinct counter keys |
| RateLimit.ThrottleKeyCollision | country-data-service/chalicelib/rate_limiter.py:49 | Without that condition, two callers on two endpoints can share one counter key |
| RateLimit.OtherCountersUntouched | country-data-service/chalicelib/rate_limiter.py:47-51 | A request leaves every other caller's and endpoint's counter alone |
| RateLimit.DeployedLimitRefuses | country-data-service/chalicelib/rate_limit_config.py:3-7 | Under the deployed table, a caller's 201st `fetch_country_data` call in one minute is refused |

## Left out

- The upstream HTTP client (`CountryDataFetcher`) is a parameter mapping a key to a document or an error text. Its URL building, the status check and the first-match selection are not modelled.
- The queue wrapper (`queue_service.py`) is not part of this model. A send is an append to the queue, or a raised error. A deletion is a success flag per receipt.
- Logging is left out. It has no effect on state or results.
- Db.GetCountryData: returns the stored document exactly as stored, and does not model the number conversion on the way in and out, because the model has no floating point. Saving turns every float into a `Decimal` (chalicelib/utils.py:16-23, applied at chalicelib/db_service.py:35). Reading applies `DecimalEncoder` (chalicelib/utils.py:25-29, at chalicelib/db_service.py:56), which turns every number DynamoDB hands back into a float, integers included: a stored 5 is read back as 5.0. So this member and the read-after-save lemmas built on it are exact where the code turns integers into floats. Truthiness is unaffected: 0 and 0.0 are both falsy.
- The HTTP routes, the index document and the `validate_country` decorator's error response are left out. Only the predicate they apply is modelled.
- Redis key expiry is wall-clock time. It is an explicit `Expire` transition.
- The clock is an integer parameter. `int(time.time() * 1000)` and its truncation are not modelled.
- Concurrency is left out: two requests racing past the PENDING check, and workers running in parallel. Every run is a sequence of whole operations.
- Deployment and configuration scripts are left out. They are file I/O and constants. The deployed rate-limit table appears only in `RateLimit.DeployedLimitRefuses`.
- `str.lower` and `str.isalpha` are modelled on ASCII letters only. Other letters are kept as they are and are not accepted as letters.
- A message body whose `country` field is truthy but not a string is left out. The body is an object with an optional string field.
- The aggregate error's message is modelled as its failure count and its list of reasons. Only the "Failed to process n messages" header is rendered; the JSON dump of the reasons is not.
- Errors raised by the PENDING status write, by the FAILED status write and by the reads are left out. In the source they propagate out of the operation. An error raised by the COMPLETED status write is modelled: the worker catches it (country_service.py:56-63).
- Consumer.DeleteAll: a failed deletion (`deleteOk` false) stands for a `ClientError` only. Any other exception from `delete_message`, such as a connection timeout, ends the clean-up loop and propagates out of the handler in place of the aggregate error; that path is not modelled.
- A SET that Redis applies even though the client raises is left out. A raising Redis call is treated as having written nothing.
- `int(period.total_seconds())` is left out. Rule windows are given in whole seconds.
- DynamoDB's table schema, provisioning and item-size limits are left out.
- Coordinator.RequestPreservesConsistency: stated only for a clock reading later than every row of the key. The clock is `int(time.time() * 1000)` (chalicelib/db_service.py:66), and a write at an existing (country, timestamp) replaces that row. A request in the same millisecond as the only COMPLETED row of a key whose stored document is falsy replaces it with PENDING, and the service is then not even settled.
- Coordinator.WorkerPreservesConsistency: stated only for a clock reading later than every row of the key. A redelivery in the same millisecond as the COMPLETED row, whose fetch fails, replaces that row with FAILED; `Coordinator.SameMillisecondRedeliveryBreaksConsistency` shows the state. The status a reader sees is the newest row either way.
- Pipeline.BatchPreservesConsistency: stated only for a clock that starts later than every row and moves on by one millisecond per worker call. The real clock can repeat a millisecond within a batch, and then a same-millisecond write replaces the row behind it, as for the two lemmas above.
- Coordinator.FetchAndSaveCountryData: the COMPLETED-or-FAILED row is stated for a clock past the key's rows. With an older clock reading, the row is filed by its timestamp as `Db.PutEntry` states.

=== FILE: base.dfy ===
/** Failure-carrying wrappers shared by every module of the model. */
module Base {

  /** Python's `None` versus a present value. */
  datatype Option<+T> = None | Some(value: T)

  /** A call that either returns a value or raises an error. */
  datatype Result<+T, +E> = Ok(value: T) | Err(error: E)

  /** True iff `c` is one of the ASCII digits. */
  predicate IsDigit(c: char) {
    '0' <= c <= '9'
  }

  function DigitChar(d: nat): (c: char)
    requires d < 10
    ensures IsDigit(c)
  {
    ('0' as int + d) as char
  }

  /** Python's `str(n)` for a non-negative int: decimal digits, no leading zero. */
  function DecimalString(n: nat): (s: string)
    ensures |s| >= 1
    ensures forall i :: 0 <= i < |s| ==> IsDigit(s[i])
    ensures |s| > 1 ==> s[0] != '0'
    decreases n
  {
    if n < 10 then [DigitChar(n)] else DecimalString(n / 10) + [DigitChar(n % 10)]
  }

  /** The number a string of decimal digits denotes (the reading direction of `DecimalString`). */
  function DecimalValue(s: string): nat
    requires forall i :: 0 <= i < |s| ==> IsDigit(s[i])
    decreases |s|
  {
    if s == [] then 0
    else
      assert IsDigit(s[|s| - 1]);
      DecimalValue(s[..|s| - 1]) * 10 + (s[|s| - 1] as int - '0' as int)
  }

  /** Reading back the rendering of a count gives the count. */
  lemma {:induction false} DecimalRoundTrip(n: nat)
    ensures DecimalValue(DecimalString(n)) == n
    decreases n
  {
    if n >= 10 {
      var s := DecimalString(n);
      DecimalRoundTrip(n / 10);
      assert s[..|s| - 1] == DecimalString(n / 10);
    }
  }
}

=== FILE: consumer.dfy ===
/**
 * `handle_sqs_message`: the batch consumer. Each record is parsed and handed to the
 * worker in order, each ends up a success or a failure with a reason, and when any
 * failed, the successes' receipts are deleted before an aggregate error is raised.
 * The worker is a parameter threading its own state, so the consumer's guarantees
 * hold whatever the worker does.
 */
module Consumer {
  import opened Base

  type Receipt = string

  /**
   * A message body as the handler sees it after `json.loads`: not JSON at all (with
   * the decoder's error text), JSON without a `get` method (a list, a string, a number,
   * with Python's type name), or an object whose `country` field is absent or falsy
   * (`None`) or a string.
   */
  datatype Body =
    | InvalidJson(detail: string)
    | NotAnObject(typeName: string)
    | Object(country: Option<string>)

  datatype Record = Record(body: Body, receipt: Receipt)

  /** How a call of the worker ended: it returned a boolean, or raised a ValueError or another exception. */
  datatype WorkerOutcome = Returned(ok: bool) | RaisedValueError(message: string) | RaisedOther(message: string)

  /** A record's fate: it joins `successful_messages`, or `failed_messages` with a reason. */
  datatype Verdict = Succeeded(record: Record) | FailedWith(record: Record, reason: string)

  /** The `BadRequestError` raised at the end: the failure count and the reasons in batch order. */
  datatype AggregateError = AggregateError(count: nat, reasons: seq<string>)

  /**
   * One run of the handler: the verdicts in batch order, the receipts it tried to
   * delete, those whose deletion succeeded, and the error it raised, if any.
   */
  datatype BatchOutcome = BatchOutcome(verdicts: seq<Verdict>, attempted: seq<Receipt>, deleted: seq<Receipt>, raised: Option<AggregateError>)

  /** What the handler does with a body before the worker: reject it, or call the worker on a country. */
  datatype Parse = Reject(reason: string) | Dispatch(country: string)

  const MissingCountry := "Missing 'country' key in message"

  function ParseBody(b: Body): (p: Parse)
    ensures p.Dispatch? <==> b.Object? && b.country.Some? && b.country.value != ""
    ensures p.Dispatch? ==> p.country == b.country.value
    ensures b.InvalidJson? ==> p == Reject("Invalid JSON: " + b.detail)
    ensures b.NotAnObject? ==> p == Reject("Unexpected error: '" + b.typeName + "' object has no attribute 'get'")
    ensures b.Object? && (b.country.None? || b.country.value == "") ==> p == Reject(MissingCountry)
  {
    match b
    case InvalidJson(detail) => Reject("Invalid JSON: " + detail)
    case NotAnObject(t) => Reject("Unexpected error: '" + t + "' object has no attribute 'get'")
    case Object(c) =>
      if c.None? || c.value == "" then Reject(MissingCountry) else Dispatch(c.value)
  }

  /** The verdict on a dispatched record from the worker's outcome. A ValueError's text is the reason as it is. */
  function Judge(r: Record, country: string, o: WorkerOutcome): (v: Verdict)
    ensures v.record == r
    ensures v.Succeeded? <==> o == Returned(true)
    ensures o == Returned(false) ==> v == FailedWith(r, "Failed to process data for " + country)
    ensures o.RaisedValueError? ==> v == FailedWith(r, o.message)
    ensures o.RaisedOther? ==> v == FailedWith(r, "Unexpected error: " + o.message)
  {
    match o
    case Returned(ok) => if ok then Succeeded(r) else FailedWith(r, "Failed to process data for " + country)
    case RaisedValueError(msg) => FailedWith(r, msg)
    case RaisedOther(msg) => FailedWith(r, "Unexpected error: " + msg)
  }

  /** One turn of the `for record in event` loop: parse, then call the worker only for a dispatched country. */
  function Step<S>(s: S, r: Record, worker: (S, string) -> (S, WorkerOutcome)): (res: (S, Verdict))
    ensures res.1.record == r
    ensures ParseBody(r.body).Reject? ==> res == (s, FailedWith(r, ParseBody(r.body).reason))
    ensures ParseBody(r.body).Dispatch? ==>
              var c := ParseBody(r.body).country;
              res == (worker(s, c).0, Judge(r, c, worker(s, c).1))
  {
    match ParseBody(r.body)
    case Reject(reason) => (s, FailedWith(r, reason))
    case Dispatch(c) =>
      var (s', o) := worker(s, c);
      (s', Judge(r, c, o))
  }

  /** The `for record in event` loop: every record is judged, in batch order, each from the state the previous left. */
  function Process<S>(s: S, records: seq<Record>, worker: (S, string) -> (S, WorkerOutcome)): (res: (S, seq<Verdict>))
    ensures |res.1| == |records|
    decreases |records|
  {
    if records == [] then (s, [])
    else
      var first := Step(s, records[0], worker);
      var rest := Process(first.0, records[1..], worker);
      (rest.0, [first.1] + rest.1)
  }

  /** The records of `successful_messages`, in batch order. */
  function Successes(vs: seq<Verdict>): (rs: seq<Record>)
    ensures |rs| + |Failures(vs)| == |vs|
  {
    if vs == [] then []
    else (if vs[0].Succeeded? then [vs[0].record] else []) + Successes(vs[1..])
  }

  /** The entries of `failed_messages`, in batch order. */
  function Failures(vs: seq<Verdict>): (fs: seq<Verdict>)
    ensures |fs| <= |vs|
    ensures forall i :: 0 <= i < |fs| ==> fs[i].FailedWith?
  {
    if vs == [] then []
    else (if vs[0].FailedWith? then [vs[0]] else []) + Failures(vs[1..])
  }

  /** The records behind a list of verdicts. */
  function Records(vs: seq<Verdict>): (rs: seq<Record>)
    ensures |rs| == |vs|
  {
    if vs == [] then [] else [vs[0].record] + Records(vs[1..])
  }

  function Receipts(rs: seq<Record>): (ts: seq<Receipt>)
    ensures |ts| == |rs|
    ensures forall i :: 0 <= i < |rs| ==> ts[i] == rs[i].receipt
  {
    seq(|rs|, i requires 0 <= i < |rs| => rs[i].receipt)
  }

  function Reasons(fs: seq<Verdict>): (ms: seq<string>)
    requires forall i :: 0 <= i < |fs| ==> fs[i].FailedWith?
    ensures |ms| == |fs|
  {
    seq(|fs|, i requires 0 <= i < |fs| => fs[i].reason)
  }

  /**
   * The clean-up loop: try to delete each receipt in order; a delete that raises a
   * client error is logged and the loop moves on. Returns the receipts actually deleted.
   */
  function DeleteAll(receipts: seq<Receipt>, deleteOk: Receipt -> bool): (deleted: seq<Receipt>)
    ensures forall x :: x in deleted <==> x in receipts && deleteOk(x)
    ensures |deleted| <= |receipts|
  {
    if receipts == [] then []
    else (if deleteOk(receipts[0]) then [receipts[0]] else []) + DeleteAll(receipts[1..], deleteOk)
  }

  /**
   * `handle_sqs_message` on one batch. With no failure it deletes nothing and raises
   * nothing (the poller deletes the batch). Otherwise it tries to delete exactly the
   * successes' receipts, then raises the aggregate error with the failure count.
   */
  function Handle<S>(s: S, records: seq<Record>, worker: (S, string) -> (S, WorkerOutcome),
                     deleteOk: Receipt -> bool): (res: (S, BatchOutcome))
    ensures |res.1.verdicts| == |records|
    ensures res.0 == Process(s, records, worker).0 && res.1.verdicts == Process(s, records, worker).1
    ensures forall i :: 0 <= i < |records| ==> res.1.verdicts[i].record == records[i]
    ensures res.1.raised.None? <==> Failures(res.1.verdicts) == []
    ensures res.1.raised.None? ==> res.1.attempted == [] && res.1.deleted == []
    ensures res.1.raised.Some? ==> res.1.raised.value.count == |Failures(res.1.verdicts)|
    ensures res.1.raised.Some? ==> res.1.raised.value.reasons == Reasons(Failures(res.1.verdicts))
    ensures res.1.raised.Some? ==> res.1.attempted == Receipts(Successes(res.1.verdicts))
    ensures forall x :: x in res.1.deleted <==> x in res.1.attempted && deleteOk(x)
  {
    var (s', vs) := Process(s, records, worker);
    ProcessKeepsRecords(s, records, worker);
    forall i | 0 <= i < |records| ensures vs[i].record == records[i] { RecordsAt(vs, i); }
    var fails := Failures(vs);
    if fails == [] then
      (s', BatchOutcome(vs, [], [], None))
    else
      var attempted := Receipts(Successes(vs));
      (s', BatchOutcome(vs, attempted, DeleteAll(attempted, deleteOk), Some(AggregateError(|fails|, Reasons(fails)))))
  }

  /**
   * The head of the raised error's message, "Failed to process {n} messages": the
   * digits between the fixed words read back as the failure count.
   */
  function AggregateHeader(e: AggregateError): (h: string)
    ensures |h| > |"Failed to process "| + |" messages"|
    ensures h[..|"Failed to process "|] == "Failed to process "
    ensures h[|h| - |" messages"|..] == " messages"
    ensures var digits := h[|"Failed to process "|..|h| - |" messages"|];
            && (forall i :: 0 <= i < |digits| ==> IsDigit(digits[i]))
            && DecimalValue(digits) == e.count
  {
    var d := DecimalString(e.count);
    DecimalRoundTrip(e.count);
    var h := "Failed to process " + d + " messages";
    assert h[|"Failed to process "|..|h| - |" messages"|] == d;
    h
  }

  // ---------------------------------------------------------------------------
  // Properties

  /** Verdicts come back one per record, in batch order. */
  lemma {:induction false} ProcessKeepsRecords<S>(s: S, records: seq<Record>, worker: (S, string) -> (S, WorkerOutcome))
    ensures Records(Process(s, records, worker).1) == records
    decreases |records|
  {
    if records != [] {
      var first := Step(s, records[0], worker);
      ProcessKeepsRecords(first.0, records[1..], worker);
      var vs := Process(s, records, worker).1;
      assert vs[1..] == Process(first.0, records[1..], worker).1;
      assert records == [records[0]] + records[1..];
    }
  }

  lemma {:induction false} RecordsAt(vs: seq<Verdict>, i: nat)
    requires i < |vs|
    ensures Records(vs)[i] == vs[i].record
    decreases i
  {
    if i > 0 { RecordsAt(vs[1..], i - 1); }
  }

  /** A record is among the successes exactly when its verdict is a success. */
  lemma {:induction false} SuccessMembership(vs: seq<Verdict>, r: Record)
    ensures r in Successes(vs) <==> Succeeded(r) in vs
  {
    if vs != [] {
      SuccessMembership(vs[1..], r);
      assert vs == [vs[0]] + vs[1..];
    }
  }

  /** A verdict is among the failures exactly when it is a failing verdict of the batch. */
  lemma {:induction false} FailureMembership(vs: seq<Verdict>, v: Verdict)
    ensures v in Failures(vs) <==> v in vs && v.FailedWith?
  {
    if vs != [] {
      FailureMembership(vs[1..], v);
      assert vs == [vs[0]] + vs[1..];
    }
  }

  /** Each record is a success or a failure, never both: the two lists add up to the batch. */
  lemma {:induction false} SuccessesAndFailuresPartition(vs: seq<Verdict>)
    ensures multiset(Successes(vs)) + multiset(Records(Failures(vs))) == multiset(Records(vs))
  {
    if vs != [] {
      var rest := vs[1..];
      SuccessesAndFailuresPartition(rest);
      var r := vs[0].record;
      var head := if vs[0].FailedWith? then [vs[0]] else [];
      RecordsAppend(head, Failures(rest));
      assert Records(vs) == [r] + Records(rest);
      assert Failures(vs) == head + Failures(rest);
      if vs[0].Succeeded? {
        assert Successes(vs) == [r] + Successes(rest);
        assert Records(head) == [];
      } else {
        assert Successes(vs) == [] + Successes(rest);
        assert Records(head) == [r];
      }
    }
  }

  lemma {:induction false} RecordsAppend(a: seq<Verdict>, b: seq<Verdict>)
    ensures Records(a + b) == Records(a) + Records(b)
    decreases |a|
  {
    if a == [] {
      assert a + b == b;
    } else {
      assert (a + b)[1..] == a[1..] + b;
      RecordsAppend(a[1..], b);
      calc {
        Records(a + b);
        [(a + b)[0].record] + Records((a + b)[1..]);
        [a[0].record] + Records(a[1..] + b);
        [a[0].record] + (Records(a[1..]) + Records(b));
        ([a[0].record] + Records(a[1..])) + Records(b);
        Records(a) + Records(b);
      }
    }
  }

  /** A record whose body is rejected fails with the parse reason and leaves the worker's state untouched. */
  lemma {:induction false} RejectedRecordsSkipWorker<S>(s: S, records: seq<Record>, worker: (S, string) -> (S, WorkerOutcome), i: nat)
    requires i < |records| && ParseBody(records[i].body).Reject?
    ensures Process(s, records, worker).1[i] == FailedWith(records[i], ParseBody(records[i].body).reason)
    decreases i
  {
    if i > 0 {
      var s1 := Step(s, records[0], worker).0;
      RejectedRecordsSkipWorker(s1, records[1..], worker, i - 1);
    }
  }

  /** A batch in which every body is rejected never calls the worker. */
  lemma {:induction false} AllRejectedLeavesStateUnchanged<S>(s: S, records: seq<Record>, worker: (S, string) -> (S, WorkerOutcome))
    requires forall i :: 0 <= i < |records| ==> ParseBody(records[i].body).Reject?
    ensures Process(s, records, worker).0 == s
    decreases |records|
  {
    if records != [] {
      assert ParseBody(records[0].body).Reject?;
      AllRejectedLeavesStateUnchanged(s, records[1..], worker);
    }
  }

  /**
   * Per-record isolation: processing a batch is processing its first part and then
   * the rest from the state the first part left, whatever verdicts the first part got.
   */
  lemma {:induction false} ProcessSplits<S>(s: S, a: seq<Record>, b: seq<Record>, worker: (S, string) -> (S, WorkerOutcome))
    ensures var pa := Process(s, a, worker);
            var pb := Process(pa.0, b, worker);
            Process(s, a + b, worker) == (pb.0, pa.1 + pb.1)
    decreases |a|
  {
    if a == [] {
      assert a + b == b;
      assert Process(s, b, worker).1 == [] + Process(s, b, worker).1;
    } else {
      var first := Step(s, a[0], worker);
      var mid := Process(first.0, a[1..], worker);
      var rest := Process(mid.0, b, worker);
      ProcessSplits(first.0, a[1..], b, worker);
      var ab := a + b;
      assert ab[0] == a[0] && ab[1..] == a[1..] + b;
      SplitsStep(Process(s, ab, worker), Process(s, a, worker), first, mid, rest);

    }
  }


  /** The inductive step of `ProcessSplits`, on the results alone. */
  lemma SplitsStep<S>(whole: (S, seq<Verdict>), pa: (S, seq<Verdict>), first: (S, Verdict),
                      mid: (S, seq<Verdict>), rest: (S, seq<Verdict>))
    requires whole == (rest.0, [first.1] + (mid.1 + rest.1))
    requires pa == (mid.0, [first.1] + mid.1)
    ensures whole == (rest.0, pa.1 + rest.1)
  {
    assert [first.1] + (mid.1 + rest.1) == ([first.1] + mid.1) + rest.1;
  }

  /** With a worker that keeps no state, a record's verdict depends on that record alone. */
  lemma {:induction false} VerdictIsLocal(records: seq<Record>, i: nat, worker: ((), string) -> ((), WorkerOutcome))
    requires i < |records|
    ensures Process((), records, worker).1[i] == Step((), records[i], worker).1
    decreases i
  {
    if i > 0 {
      VerdictIsLocal(records[1..], i - 1, worker);
      var first := Step((), records[0], worker);
      var rest := Process(first.0, records[1..], worker);
      assert first.0 == ();
      assert Process((), records, worker).1 == [first.1] + rest.1;
      assert ([first.1] + rest.1)[i] == rest.1[i - 1];
    }
  }

  /**
   * A record's verdict is its own step, taken from the state every earlier record
   * left: earlier verdicts never change how a later record is judged.
   */
  lemma {:induction false} VerdictFromPrefixState<S>(s: S, records: seq<Record>, worker: (S, string) -> (S, WorkerOutcome), i: nat)
    requires i < |records|
    ensures Process(s, records, worker).1[i] == Step(Process(s, records[..i], worker).0, records[i], worker).1
  {
    var pa := Process(s, records[..i], worker);
    var tail := records[i..];
    ProcessSplits(s, records[..i], tail, worker);
    assert records[..i] + tail == records;
    assert tail[0] == records[i];
    var pb := Process(pa.0, tail, worker);
    assert pb.1[0] == Step(pa.0, records[i], worker).1;
    assert (pa.1 + pb.1)[i] == pb.1[0];
  }

  /**
   * A record whose body names a country is judged on what the worker answers for
   * that country, called from the state the records before it left.
   */
  lemma DispatchedVerdict<S>(s: S, records: seq<Record>, worker: (S, string) -> (S, WorkerOutcome), i: nat)
    requires i < |records| && ParseBody(records[i].body).Dispatch?
    ensures var c := ParseBody(records[i].body).country;
            var before := Process(s, records[..i], worker).0;
            Process(s, records, worker).1[i] == Judge(records[i], c, worker(before, c).1)
  {
    VerdictFromPrefixState(s, records, worker, i);
  }

  /** A failed record's receipt is never deleted, provided receipts identify records. */
  lemma FailedReceiptsAreNeverDeleted<S>(s: S, records: seq<Record>, worker: (S, string) -> (S, WorkerOutcome),
                                         deleteOk: Receipt -> bool, i: nat)
    requires forall a, b :: 0 <= a < b < |records| ==> records[a].receipt != records[b].receipt
    requires i < |records|
    requires Handle(s, records, worker, deleteOk).1.verdicts[i].FailedWith?
    ensures records[i].receipt !in Handle(s, records, worker, deleteOk).1.deleted
  {
    var out := Handle(s, records, worker, deleteOk).1;
    var vs := out.verdicts;
    var ts := Receipts(Successes(vs));
    forall j | 0 <= j < |ts| ensures ts[j] != records[i].receipt {
      var r := Successes(vs)[j];
      SuccessMembership(vs, r);
      var m :| 0 <= m < |vs| && vs[m] == Succeeded(r);
      assert m != i;
    }
    assert records[i].receipt !in ts;
  }

  // ---------------------------------------------------------------------------
  // Scenarios

  /** A worker that always succeeds and keeps no state. */
  function AlwaysOk(s: (), c: string): ((), WorkerOutcome) {
    ((), Returned(true))
  }

  /** One step, then the rest of the batch from the state it left. */
  lemma ProcessCons<S>(s: S, r: Record, rest: seq<Record>, worker: (S, string) -> (S, WorkerOutcome))
    ensures var first := Step(s, r, worker);
            var tail := Process(first.0, rest, worker);
            Process(s, [r] + rest, worker) == (tail.0, [first.1] + tail.1)
  {
    assert ([r] + rest)[0] == r;
    assert ([r] + rest)[1..] == rest;
  }

  /** The batch of the next scenario: "france", a body that is not JSON, "germany". */
  function MalformedBatch(detail: string): seq<Record> {
    [Record(Object(Some("france")), "receipt1"), Record(InvalidJson(detail), "receipt2"),
     Record(Object(Some("germany")), "receipt3")]
  }

  lemma MalformedBatchVerdicts(detail: string)
    ensures var rs := MalformedBatch(detail);
            Process((), rs, AlwaysOk).1 == [Succeeded(rs[0]), FailedWith(rs[1], "Invalid JSON: " + detail), Succeeded(rs[2])]
  {
    var rs := MalformedBatch(detail);
    var v1, v2, v3 := Succeeded(rs[0]), FailedWith(rs[1], "Invalid JSON: " + detail), Succeeded(rs[2]);
    assert Step((), rs[0], AlwaysOk) == ((), v1);
    assert Step((), rs[1], AlwaysOk) == ((), v2);
    assert Step((), rs[2], AlwaysOk) == ((), v3);
    ProcessCons((), rs[2], [], AlwaysOk);
    assert [rs[2]] + [] == [rs[2]];
    ProcessCons((), rs[1], [rs[2]], AlwaysOk);
    assert [rs[1]] + [rs[2]] == [rs[1], rs[2]];
    ProcessCons((), rs[0], [rs[1], rs[2]], AlwaysOk);
    assert [rs[0]] + [rs[1], rs[2]] == rs;
  }

  lemma MalformedBatchSplit(r1: Record, v2: Verdict, r3: Record)
    requires v2.FailedWith?
    ensures Successes([Succeeded(r1), v2, Succeeded(r3)]) == [r1, r3]
    ensures Failures([Succeeded(r1), v2, Succeeded(r3)]) == [v2]
  {
    var vs := [Succeeded(r1), v2, Succeeded(r3)];
    assert vs[1..] == [v2, Succeeded(r3)];
    assert vs[1..][1..] == [Succeeded(r3)];
    assert vs[1..][1..][1..] == [];
    assert Successes([Succeeded(r3)]) == [r3] && Failures([Succeeded(r3)]) == [];
    assert Successes(vs[1..]) == [r3] && Failures(vs[1..]) == [v2];
  }

  /** Three records, the second not JSON: two successes, one failure naming it, the first and third deleted. */
  lemma MalformedMiddleRecord(detail: string)
    ensures var records := MalformedBatch(detail);
            var out := Handle((), records, AlwaysOk, t => true).1;
            && |Successes(out.verdicts)| == 2
            && Failures(out.verdicts) == [FailedWith(records[1], "Invalid JSON: " + detail)]
            && out.attempted == ["receipt1", "receipt3"]
            && out.deleted == ["receipt1", "receipt3"]
            && out.raised == Some(AggregateError(1, ["Invalid JSON: " + detail]))
  {
    var rs := MalformedBatch(detail);
    var v2 := FailedWith(rs[1], "Invalid JSON: " + detail);
    MalformedBatchVerdicts(detail);
    MalformedBatchSplit(rs[0], v2, rs[2]);
    var attempted := Receipts([rs[0], rs[2]]);
    assert attempted == ["receipt1", "receipt3"];
    assert attempted[1..] == ["receipt3"] && attempted[1..][1..] == [];
    assert DeleteAll(attempted, t => true) == attempted;
    assert [v2][1..] == [];
    assert Reasons([v2]) == ["Invalid JSON: " + detail];
  }

  /** The worker of the next scenarios: succeeds on its first call and ends every later one with `o`. */
  function ThenOutcome(o: WorkerOutcome): (int, string) -> (int, WorkerOutcome) {
    (n: int, c: string) => (n + 1, if n == 0 then Returned(true) else o)
  }

  /** The two records of the next scenarios: "france", then "germany". */
  const FranceThenGermany := [Record(Object(Some("france")), "receipt1"), Record(Object(Some("germany")), "receipt2")]

  /** "france" then "germany", the worker succeeding on the first and ending the second with `o`. */
  lemma SecondRecordVerdicts(o: WorkerOutcome)
    ensures Process(0, FranceThenGermany, ThenOutcome(o)).1 ==
              [Succeeded(FranceThenGermany[0]), Judge(FranceThenGermany[1], "germany", o)]
  {
    var r1, r2 := FranceThenGermany[0], FranceThenGermany[1];
    var worker := ThenOutcome(o);
    assert Step(0, r1, worker) == (1, Succeeded(r1));
    assert Step(1, r2, worker) == (2, Judge(r2, "germany", o));
    ProcessCons(1, r2, [], worker);
    assert [r2] + [] == [r2];
    ProcessCons(0, r1, [r2], worker);
    assert [r1] + [r2] == FranceThenGermany;
  }

  /** A success followed by a failure: one failure, and only the success is a success. */
  lemma SuccessThenFailure(r1: Record, v2: Verdict)
    requires v2.FailedWith?
    ensures Successes([Succeeded(r1), v2]) == [r1]
    ensures Failures([Succeeded(r1), v2]) == [v2]
  {
    var vs := [Succeeded(r1), v2];
    assert vs[1..] == [v2];
    assert vs[1..][1..] == [];
  }


  /**
   * "france" then "germany", the worker succeeding on the first and ending the second
   * with `o`: the second record's verdict is the one `o` earns, and when that is a
   * failure, the error counts one failure and only the first receipt is deleted.
   */
  lemma SecondRecordOutcome(o: WorkerOutcome)
    ensures var out := Handle(0, FranceThenGermany, ThenOutcome(o), t => true).1;
            var v2 := Judge(FranceThenGermany[1], "germany", o);
            && out.verdicts == [Succeeded(FranceThenGermany[0]), v2]
            && (v2.FailedWith? ==>
                  && Failures(out.verdicts) == [v2]
                  && out.raised == Some(AggregateError(1, [v2.reason]))
                  && out.attempted == ["receipt1"]
                  && out.deleted == ["receipt1"])
  {
    var r1, v2 := FranceThenGermany[0], Judge(FranceThenGermany[1], "germany", o);
    SecondRecordVerdicts(o);
    if v2.FailedWith? {
      SuccessThenFailure(r1, v2);
      var attempted := Receipts([r1]);
      assert attempted == ["receipt1"] && attempted[1..] == [];
      assert DeleteAll(attempted, t => true) == attempted;
      assert Reasons([v2]) == [v2.reason];
    }
  }

  /** Two records, the worker raising on the second: one failure carrying the error text, only the first deleted. */
  lemma WorkerRaisesOnSecond(msg: string)
    ensures var out := Handle(0, FranceThenGermany, ThenOutcome(RaisedOther(msg)), t => true).1;
            && out.raised == Some(AggregateError(1, ["Unexpected error: " + msg]))
            && out.deleted == ["receipt1"]
  {
    SecondRecordOutcome(RaisedOther(msg));
  }

  /**
   * Two records, the worker answering false on the second: one failure whose reason
   * names "germany", and only the first receipt is deleted.
   */
  lemma WorkerFailsOnSecond()
    ensures var out := Handle(0, FranceThenGermany, ThenOutcome(Returned(false)), t => true).1;
            && Failures(out.verdicts) == [FailedWith(FranceThenGermany[1], "Failed to process data for germany")]
            && out.raised == Some(AggregateError(1, ["Failed to process data for germany"]))
            && out.attempted == ["receipt1"]
            && out.deleted == ["receipt1"]
  {
    var o := Returned(false);
    var reason := "Failed to process data for germany";
    assert "Failed to process data for " + "germany" == reason;
    assert Judge(FranceThenGermany[1], "germany", o) == FailedWith(FranceThenGermany[1], reason);
    SecondRecordOutcome(o);
  }

  /** A body without a usable `country` fails with the fixed reason and the worker is not called. */
  lemma MissingCountryIsRejected(r: Record)
    requires r.body.Object? && (r.body.country.None? || r.body.country.value == "")
    ensures forall s: int :: Step(s, r, (n: int, c: string) => (n + 1, Returned(true))) == (s, FailedWith(r, MissingCountry))
  {
  }

  /**
   * A batch of one record: the handler returns normally exactly when that record
   * succeeds, and then nothing is deleted; the state is the one its step leaves.
   */
  lemma SingleRecordBatch<S>(s: S, r: Record, worker: (S, string) -> (S, WorkerOutcome), deleteOk: Receipt -> bool)
    ensures var (s', out) := Handle(s, [r], worker, deleteOk);
            var step := Step(s, r, worker);
            && s' == step.0
            && out.verdicts == [step.1]
            && (out.raised.None? <==> step.1.Succeeded?)
            && out.deleted == []
  {
    var step := Step(s, r, worker);
    assert [r][1..] == [];
    assert Process(step.0, [r][1..], worker) == (step.0, []);
    assert Process(s, [r], worker) == (step.0, [step.1] + []);
    assert [step.1] + [] == [step.1];
    assert Failures([step.1]) == (if step.1.FailedWith? then [step.1] else []) + Failures([]);
    assert Successes([step.1]) == (if step.1.Succeeded? then [r] else []) + Successes([]);
  }
}

=== FILE: coordinator.dfy ===
/**
 * `CountryService`: the request path that decides whether a fetch is needed, the
 * fetch-and-persist worker path, and the two read operations. The upstream fetch
 * is an oracle, the clock a parameter.
 */
module Coordinator {
  import opened Base
  import opened Json
  import opened Names
  import Db

  type Key = Db.Key

  /** The body of a message sent to the fetch queue: `{'country': key}`. */
  datatype WorkItem = WorkItem(country: Key)

  /** Both tables and every message sent to the queue, oldest first. */
  datatype Service = Service(db: Db.Tables, queue: seq<WorkItem>)

  const EmptyService := Service(Db.EmptyTables, [])

  /** The answer of `fetch_country_data`: `{"country": key, "status": ...}`. */
  datatype FetchResponse = FetchResponse(country: Key, status: Db.Status)

  /** What the upstream fetch of one key gives: a document, or the text of the exception it raised. */
  datatype FetchResult = Fetched(document: Json) | FetchError(message: string)

  /** Chalice's `NotFoundError` with its message. */
  datatype NotFound = NotFound(message: string)

  /** `if existing_data`: a document is stored for `k` and it is truthy. */
  function HasData(t: Db.Tables, k: Key): (b: bool)
    ensures b <==> k in t.countries && t.countries[k] !in FalsyValues
  {
    var d := Db.GetCountryData(t, k);
    d.Some? && Truthy(d.value)
  }

  /**
   * `fetch_country_data`: COMPLETED when the data is already stored, PENDING without
   * side effects when a fetch is in progress, otherwise record PENDING and enqueue
   * one message. `sendFault` is an error raised by the queue send, which happens
   * after the PENDING row has been written.
   */
  function FetchCountryData(svc: Service, name: string, now: int, sendFault: Option<string>): (r: (Service, Result<FetchResponse, string>))
    ensures r.1.Ok? ==> r.1.value.country == Standardize(name)
    ensures r.1 == Ok(FetchResponse(Standardize(name), Db.Completed)) <==> HasData(svc.db, Standardize(name))
    ensures r.1.Ok? && r.1.value.status != Db.Completed ==> r.1.value.status == Db.Pending
    ensures r.1.Err? ==> sendFault.Some? && !HasData(svc.db, Standardize(name)) && !Db.IsOperationInProgress(svc.db, Standardize(name))
    ensures r.0 != svc ==> !HasData(svc.db, Standardize(name)) && !Db.IsOperationInProgress(svc.db, Standardize(name))
    ensures !HasData(svc.db, Standardize(name)) && !Db.IsOperationInProgress(svc.db, Standardize(name)) ==>
              && r.0.db == Db.SaveOperationStatus(svc.db, Standardize(name), Db.Pending, now, "")
              && (sendFault.None? ==> r.0.queue == svc.queue + [WorkItem(Standardize(name))] && r.1 == Ok(FetchResponse(Standardize(name), Db.Pending)))
              && (sendFault.Some? ==> r.0.queue == svc.queue && r.1 == Err(sendFault.value))
    ensures r.0.db.countries == svc.db.countries
    ensures forall k :: k != Standardize(name) ==> Db.History(r.0.db, k) == Db.History(svc.db, k)
    ensures r.0.queue == svc.queue || r.0.queue == svc.queue + [WorkItem(Standardize(name))]
    ensures |Db.History(r.0.db, Standardize(name))| <= |Db.History(svc.db, Standardize(name))| + 1
    ensures Db.WellFormed(svc.db) ==> Db.WellFormed(r.0.db)
  {
    var k := Standardize(name);
    if HasData(svc.db, k) then
      (svc, Ok(FetchResponse(k, Db.Completed)))
    else if Db.IsOperationInProgress(svc.db, k) then
      (svc, Ok(FetchResponse(k, Db.Pending)))
    else
      EnqueueAfterPendingRow(svc, Db.SaveOperationStatus(svc.db, k, Db.Pending, now, ""), k, sendFault)
  }

  /** The final branch of `fetch_country_data`, once the PENDING row is written: send the message, or raise the send's error. */
  function EnqueueAfterPendingRow(svc: Service, t: Db.Tables, k: Key, sendFault: Option<string>): (Service, Result<FetchResponse, string>) {
    if sendFault.Some? then (svc.(db := t), Err(sendFault.value))
    else (Service(t, svc.queue + [WorkItem(k)]), Ok(FetchResponse(k, Db.Pending)))
  }

  /** The text `str(e)` of whichever step raised: the fetch first, then the save, then the COMPLETED write. */
  function FailureText(fetched: FetchResult, saveFault: Option<string>, completedFault: Option<string>): string {
    if fetched.FetchError? then fetched.message
    else if saveFault.Some? then saveFault.value
    else if completedFault.Some? then completedFault.value
    else ""
  }

  /**
   * `fetch_and_save_country_data`: fetch, save if absent, record COMPLETED and return
   * true even when the save found the key taken. When the fetch, the save or the
   * COMPLETED write raises, record FAILED with the error text and return false; a
   * document saved before the COMPLETED write raised stays stored. `saveFault` is a
   * client error of the conditional put other than "already exists"; `completedFault`
   * an error of the COMPLETED status write, which then writes no row.
   */
  function FetchAndSaveCountryData(svc: Service, name: string, fetcher: Key -> FetchResult,
                                   saveFault: Option<string>, completedFault: Option<string>, now: int): (r: (Service, bool))
    ensures r.0.queue == svc.queue
    ensures r.1 <==> fetcher(Standardize(name)).Fetched? && saveFault.None? && completedFault.None?
    ensures fetcher(Standardize(name)).Fetched? && saveFault.None? ==>
              && Standardize(name) in r.0.db.countries
              && r.0.db.countries == if Standardize(name) in svc.db.countries then svc.db.countries
                                     else svc.db.countries[Standardize(name) := fetcher(Standardize(name)).document]
    ensures !(fetcher(Standardize(name)).Fetched? && saveFault.None?) ==> r.0.db.countries == svc.db.countries
    ensures forall k :: k != Standardize(name) ==> Db.History(r.0.db, k) == Db.History(svc.db, k)
    ensures Db.Fresh(svc.db, Standardize(name), now) ==>
              Db.History(r.0.db, Standardize(name)) == Db.History(svc.db, Standardize(name)) +
                [WorkerRow(Standardize(name), r.1, now, FailureText(fetcher(Standardize(name)), saveFault, completedFault))]
    ensures Db.WellFormed(svc.db) ==> Db.WellFormed(r.0.db)
  {
    var k := Standardize(name);
    match fetcher(k)
    case FetchError(msg) =>
      (svc.(db := Db.SaveOperationStatus(svc.db, k, Db.Failed, now, msg)), false)
    case Fetched(doc) =>
      var (t, saved) := Db.SaveCountryData(svc.db, k, doc, saveFault);
      if saved.Err? then
        (svc.(db := Db.SaveOperationStatus(t, k, Db.Failed, now, saved.error)), false)
      else if completedFault.Some? then
        (svc.(db := Db.SaveOperationStatus(t, k, Db.Failed, now, completedFault.value)), false)
      else
        (svc.(db := Db.SaveOperationStatus(t, k, Db.Completed, now, "")), true)
  }

  /** The status row the worker writes: COMPLETED on success, FAILED with the error text otherwise. */
  function WorkerRow(k: Key, ok: bool, now: int, error: string): Db.StatusEntry {
    if ok then Db.NewEntry(k, Db.Completed, now, "") else Db.NewEntry(k, Db.Failed, now, error)
  }

  /** `get_country_data`: the stored document, or NotFound when it is absent or falsy. */
  function GetCountryData(svc: Service, name: string): (r: Result<Json, NotFound>)
    ensures r.Ok? <==> HasData(svc.db, Standardize(name))
    ensures r.Ok? ==> Standardize(name) in svc.db.countries && r.value == svc.db.countries[Standardize(name)]
    ensures r.Err? ==> r.error == NotFound("Country data for '" + Standardize(name) + "' not found")
  {
    var k := Standardize(name);
    var d := Db.GetCountryData(svc.db, k);
    if d.Some? && Truthy(d.value) then Ok(d.value)
    else Err(NotFound("Country data for '" + k + "' not found"))
  }

  /** `check_operation_status`: the newest status row, or NotFound when the key has none. */
  function CheckOperationStatus(svc: Service, name: string): (r: Result<Db.StatusEntry, NotFound>)
    ensures r.Ok? <==> Db.History(svc.db, Standardize(name)) != []
    ensures r.Ok? ==> Db.IsNewest(Db.History(svc.db, Standardize(name)), r.value)
    ensures r.Err? ==> r.error == NotFound("No operation found for country '" + Standardize(name) + "'")
  {
    var k := Standardize(name);
    match Db.GetOperationStatus(svc.db, k)
    case Some(e) => Ok(e)
    case None => Err(NotFound("No operation found for country '" + k + "'"))
  }

  // ---------------------------------------------------------------------------
  // The request path

  /** Once the data is stored, a request is answered COMPLETED and changes nothing. */
  lemma RequestAfterCompletionIsFree(svc: Service, name: string, now: int, sendFault: Option<string>)
    requires HasData(svc.db, Standardize(name))
    ensures FetchCountryData(svc, name, now, sendFault) == (svc, Ok(FetchResponse(Standardize(name), Db.Completed)))
  {
  }

  /** While a fetch is in progress and nothing is stored, a request is answered PENDING and changes nothing. */
  lemma RequestInProgressIsDeduplicated(svc: Service, name: string, now: int, sendFault: Option<string>)
    requires !HasData(svc.db, Standardize(name)) && Db.IsOperationInProgress(svc.db, Standardize(name))
    ensures FetchCountryData(svc, name, now, sendFault) == (svc, Ok(FetchResponse(Standardize(name), Db.Pending)))
  {
  }

  /**
   * Otherwise a request writes exactly one PENDING row and sends exactly one message
   * for the key; with a fresh clock the row becomes the current status.
   */
  lemma RequestEnqueuesOnce(svc: Service, name: string, now: int)
    requires !HasData(svc.db, Standardize(name)) && !Db.IsOperationInProgress(svc.db, Standardize(name))
    requires Db.Fresh(svc.db, Standardize(name), now)
    ensures var (s, r) := FetchCountryData(svc, name, now, None);
            var k := Standardize(name);
            && r == Ok(FetchResponse(k, Db.Pending))
            && s.queue == svc.queue + [WorkItem(k)]
            && Db.History(s.db, k) == Db.History(svc.db, k) + [Db.NewEntry(k, Db.Pending, now, "")]
            && Db.IsOperationInProgress(s.db, k)
  {
    Db.CurrentStatusAfterFreshSave(svc.db, Standardize(name), Db.Pending, now, "");
  }

  /**
   * Two back-to-back requests for a key send at most one message between them: the
   * second finds either the data or the first one's PENDING row.
   */
  lemma BackToBackRequestsEnqueueAtMostOnce(svc: Service, name: string, t1: int, t2: int)
    requires Db.Fresh(svc.db, Standardize(name), t1)
    ensures var (s1, r1) := FetchCountryData(svc, name, t1, None);
            var (s2, r2) := FetchCountryData(s1, name, t2, None);
            && s2 == s1
            && r2 == r1
            && |s2.queue| <= |svc.queue| + 1
  {
    var k := Standardize(name);
    if !HasData(svc.db, k) && !Db.IsOperationInProgress(svc.db, k) {
      RequestEnqueuesOnce(svc, name, t1);
    }
  }

  /**
   * A FAILED current status does not block a new request: FAILED is neither stored
   * data nor PENDING, so the request falls through to the enqueue branch.
   */
  lemma RequestAfterFailureRetries(svc: Service, name: string, now: int)
    requires !HasData(svc.db, Standardize(name))
    requires var s := Db.GetOperationStatus(svc.db, Standardize(name)); s.Some? && s.value.status == Db.Failed
    ensures FetchCountryData(svc, name, now, None).0.queue == svc.queue + [WorkItem(Standardize(name))]
  {
    var k := Standardize(name);
    Db.NewestIsLast(Db.History(svc.db, k));
  }

  /**
   * A queue error after the PENDING row is written leaves the key in progress with no
   * message sent: every later request is answered PENDING and sends nothing.
   */
  lemma SendFaultLeavesKeyPending(svc: Service, name: string, now: int, fault: string, later: int)
    requires !HasData(svc.db, Standardize(name)) && !Db.IsOperationInProgress(svc.db, Standardize(name))
    requires Db.Fresh(svc.db, Standardize(name), now)
    ensures var (s, r) := FetchCountryData(svc, name, now, Some(fault));
            && r == Err(fault)
            && s.queue == svc.queue
            && FetchCountryData(s, name, later, None) == (s, Ok(FetchResponse(Standardize(name), Db.Pending)))
  {
    var k := Standardize(name);
    var t := Db.SaveOperationStatus(svc.db, k, Db.Pending, now, "");
    Db.CurrentStatusAfterFreshSave(svc.db, k, Db.Pending, now, "");
    var s := FetchCountryData(svc, name, now, Some(fault)).0;
    assert s == svc.(db := t);
    assert !HasData(s.db, k);
    RequestInProgressIsDeduplicated(s, name, later, None);
  }

  // ---------------------------------------------------------------------------
  // The worker path

  /** A successful fetch stores the document if none was stored, and COMPLETED becomes the current status. */
  lemma WorkerSuccessCompletes(svc: Service, name: string, fetcher: Key -> FetchResult, now: int)
    requires fetcher(Standardize(name)).Fetched?
    requires Db.Fresh(svc.db, Standardize(name), now)
    ensures var (s, ok) := FetchAndSaveCountryData(svc, name, fetcher, None, None, now);
            var k := Standardize(name);
            && ok
            && Db.GetOperationStatus(s.db, k) == Some(Db.StatusEntry(k, now, Db.Completed, None))
            && !Db.IsOperationInProgress(s.db, k)
            && CheckOperationStatus(s, name) == Ok(Db.StatusEntry(k, now, Db.Completed, None))
            && (k !in svc.db.countries ==> Db.GetCountryData(s.db, k) == Some(fetcher(k).document))
  {
    var k := Standardize(name);
    var t := Db.SaveCountryData(svc.db, k, fetcher(k).document, None).0;
    Db.CurrentStatusAfterFreshSave(t, k, Db.Completed, now, "");
  }

  /**
   * A failed fetch stores nothing and FAILED becomes the current status, carrying the
   * error text when it is non-empty; the key is no longer in progress.
   */
  lemma WorkerFailureRecordsError(svc: Service, name: string, fetcher: Key -> FetchResult, now: int)
    requires fetcher(Standardize(name)).FetchError?
    requires Db.Fresh(svc.db, Standardize(name), now)
    ensures var (s, ok) := FetchAndSaveCountryData(svc, name, fetcher, None, None, now);
            var k := Standardize(name);
            var msg := fetcher(k).message;
            && !ok
            && s.db.countries == svc.db.countries
            && Db.GetOperationStatus(s.db, k) == Some(Db.StatusEntry(k, now, Db.Failed, if msg != "" then Some(msg) else None))
            && !Db.IsOperationInProgress(s.db, k)
  {
    var k := Standardize(name);
    Db.CurrentStatusAfterFreshSave(svc.db, k, Db.Failed, now, fetcher(k).message);
  }

  /** A save error other than "already exists" is reported like a failed fetch. */
  lemma WorkerSaveFaultRecordsError(svc: Service, name: string, fetcher: Key -> FetchResult, fault: string, now: int)
    requires fetcher(Standardize(name)).Fetched?
    requires Db.Fresh(svc.db, Standardize(name), now)
    ensures var (s, ok) := FetchAndSaveCountryData(svc, name, fetcher, Some(fault), None, now);
            var k := Standardize(name);
            && !ok
            && s.db.countries == svc.db.countries
            && Db.GetOperationStatus(s.db, k) == Some(Db.StatusEntry(k, now, Db.Failed, if fault != "" then Some(fault) else None))
  {
    var k := Standardize(name);
    Db.CurrentStatusAfterFreshSave(svc.db, k, Db.Failed, now, fault);
  }

  /**
   * The COMPLETED write raises after the document was saved: the document stays
   * stored, FAILED with the write's error text becomes the current status, and the
   * worker answers false.
   */
  lemma WorkerCompletedWriteFaultKeepsDocument(svc: Service, name: string, fetcher: Key -> FetchResult, fault: string, now: int)
    requires fetcher(Standardize(name)).Fetched?
    requires Db.Fresh(svc.db, Standardize(name), now)
    ensures var (s, ok) := FetchAndSaveCountryData(svc, name, fetcher, None, Some(fault), now);
            var k := Standardize(name);
            && !ok
            && k in s.db.countries
            && (k !in svc.db.countries ==> Db.GetCountryData(s.db, k) == Some(fetcher(k).document))
            && Db.GetOperationStatus(s.db, k) == Some(Db.StatusEntry(k, now, Db.Failed, if fault != "" then Some(fault) else None))
  {
    var k := Standardize(name);
    var (t, saved) := Db.SaveCountryData(svc.db, k, fetcher(k).document, None);
    assert saved.Ok? && k in t.countries && Db.History(t, k) == Db.History(svc.db, k);
    var s := FetchAndSaveCountryData(svc, name, fetcher, None, Some(fault), now).0;
    assert s.db == Db.SaveOperationStatus(t, k, Db.Failed, now, fault);
    Db.CurrentStatusAfterFreshSave(t, k, Db.Failed, now, fault);
  }

  /**
   * A redelivered message whose fetch now fails, for a key whose data is stored:
   * the status reads FAILED while the data is served and requests say COMPLETED.
   */
  lemma RedeliveredFailureShadowsStoredData(svc: Service, name: string, fetcher: Key -> FetchResult, now: int, later: int)
    requires HasData(svc.db, Standardize(name))
    requires fetcher(Standardize(name)).FetchError?
    requires Db.Fresh(svc.db, Standardize(name), now)
    ensures var s := FetchAndSaveCountryData(svc, name, fetcher, None, None, now).0;
            && CheckOperationStatus(s, name).Ok?
            && CheckOperationStatus(s, name).value.status == Db.Failed
            && GetCountryData(s, name) == GetCountryData(svc, name)
            && FetchCountryData(s, name, later, None).1 == Ok(FetchResponse(Standardize(name), Db.Completed))
  {
    WorkerFailureRecordsError(svc, name, fetcher, now);
  }

  // ---------------------------------------------------------------------------
  // Invariants over runs

  /** Some status row of `k` says COMPLETED. */
  predicate HasCompletedRow(t: Db.Tables, k: Key) {
    exists e :: e in Db.History(t, k) && e.status == Db.Completed
  }

  /** Some status row of `k` is a worker's outcome, COMPLETED or FAILED. */
  predicate HasOutcomeRow(t: Db.Tables, k: Key) {
    exists e :: e in Db.History(t, k) && e.status != Db.Pending
  }

  /**
   * Every stored document has a row the worker wrote after saving it, and every
   * queued key is canonical. This holds whichever step of the worker raises.
   */
  predicate Settled(svc: Service) {
    && Db.WellFormed(svc.db)
    && (forall k :: k in svc.db.countries ==> HasOutcomeRow(svc.db, k))
    && (forall i :: 0 <= i < |svc.queue| ==> IsCanonical(svc.queue[i].country))
  }

  /** Settled, and every stored document has a COMPLETED row. An error of the COMPLETED write breaks it. */
  predicate Consistent(svc: Service) {
    && Settled(svc)
    && (forall k :: k in svc.db.countries ==> HasCompletedRow(svc.db, k))
  }

  lemma EmptyServiceIsConsistent()
    ensures Consistent(EmptyService)
  {
  }

  /** When only `k`'s rows change, and only by rows added after them, every row survives. */
  lemma RowsSurvive(t: Db.Tables, t': Db.Tables, k: Key)
    requires forall k' :: k' != k ==> Db.History(t', k') == Db.History(t, k')
    requires exists tail :: Db.History(t', k) == Db.History(t, k) + tail
    ensures forall k' :: HasCompletedRow(t, k') ==> HasCompletedRow(t', k')
    ensures forall k' :: HasOutcomeRow(t, k') ==> HasOutcomeRow(t', k')
  {
    var tail :| Db.History(t', k) == Db.History(t, k) + tail;
    forall k' | HasCompletedRow(t, k') ensures HasCompletedRow(t', k') {
      var e :| e in Db.History(t, k') && e.status == Db.Completed;
      assert e in Db.History(t', k');
    }
    forall k' | HasOutcomeRow(t, k') ensures HasOutcomeRow(t', k') {
      var e :| e in Db.History(t, k') && e.status != Db.Pending;
      assert e in Db.History(t', k');
    }
  }

  /** What a request with a fresh clock keeps: documents, every row, and canonical queued keys. */
  lemma RequestKeepsRows(svc: Service, name: string, now: int, sendFault: Option<string>)
    requires Db.Fresh(svc.db, Standardize(name), now)
    requires forall i :: 0 <= i < |svc.queue| ==> IsCanonical(svc.queue[i].country)
    ensures var s := FetchCountryData(svc, name, now, sendFault).0;
            && s.db.countries == svc.db.countries
            && (forall k' :: HasCompletedRow(svc.db, k') ==> HasCompletedRow(s.db, k'))
            && (forall k' :: HasOutcomeRow(svc.db, k') ==> HasOutcomeRow(s.db, k'))
            && (forall i :: 0 <= i < |s.queue| ==> IsCanonical(s.queue[i].country))
  {
    var k := Standardize(name);
    var s := FetchCountryData(svc, name, now, sendFault).0;
    if s != svc {
      assert s.db == Db.SaveOperationStatus(svc.db, k, Db.Pending, now, "");
      assert Db.History(s.db, k) == Db.History(svc.db, k) + [Db.NewEntry(k, Db.Pending, now, "")];
      RowsSurvive(svc.db, s.db, k);
      forall i | 0 <= i < |s.queue| ensures IsCanonical(s.queue[i].country) {
        if i >= |svc.queue| { assert s.queue[i].country == k; }
      }
    }
  }

  /** A request keeps the service settled, and consistent, when the clock has moved past the key's rows. */
  lemma RequestPreservesConsistency(svc: Service, name: string, now: int, sendFault: Option<string>)
    requires Settled(svc)
    requires Db.Fresh(svc.db, Standardize(name), now)
    ensures Settled(FetchCountryData(svc, name, now, sendFault).0)
    ensures Consistent(svc) ==> Consistent(FetchCountryData(svc, name, now, sendFault).0)
  {
    RequestKeepsRows(svc, name, now, sendFault);
  }


  /**
   * The worker keeps the service settled when the clock has moved past the key's
   * rows: a document is stored only together with a COMPLETED or FAILED row. It
   * keeps the service consistent as long as its COMPLETED write does not raise.
   */
  lemma WorkerPreservesConsistency(svc: Service, name: string, fetcher: Key -> FetchResult,
                                   saveFault: Option<string>, completedFault: Option<string>, now: int)
    requires Settled(svc)
    requires Db.Fresh(svc.db, Standardize(name), now)
    ensures Settled(FetchAndSaveCountryData(svc, name, fetcher, saveFault, completedFault, now).0)
    ensures Consistent(svc) && completedFault.None? ==>
              Consistent(FetchAndSaveCountryData(svc, name, fetcher, saveFault, completedFault, now).0)
  {
    var k := Standardize(name);
    var (s, ok) := FetchAndSaveCountryData(svc, name, fetcher, saveFault, completedFault, now);
    var row := WorkerRow(k, ok, now, FailureText(fetcher(k), saveFault, completedFault));
    assert Db.History(s.db, k) == Db.History(svc.db, k) + [row];
    RowsSurvive(svc.db, s.db, k);
    assert row in Db.History(s.db, k) && row.status != Db.Pending;
    if ok {
      assert row.status == Db.Completed;
    }
  }

  /**
   * The COMPLETED write raising on an empty service: "france" is stored and served,
   * its only row is FAILED, so the service is settled but not consistent.
   */
  lemma CompletedWriteFaultBreaksConsistency(doc: Json, fault: string, now: int)
    requires Truthy(doc)
    ensures var s := FetchAndSaveCountryData(EmptyService, "france", k => Fetched(doc), None, Some(fault), now).0;
            && GetCountryData(s, "france") == Ok(doc)
            && CheckOperationStatus(s, "france").Ok?
            && CheckOperationStatus(s, "france").value.status == Db.Failed
            && Settled(s)
            && !Consistent(s)
  {
    StandardizeExamples();
    StandardizeIdempotent("France");
    var fetcher: Key -> FetchResult := k => Fetched(doc);
    var s := FetchAndSaveCountryData(EmptyService, "france", fetcher, None, Some(fault), now).0;
    WorkerCompletedWriteFaultKeepsDocument(EmptyService, "france", fetcher, fault, now);
    EmptyServiceIsConsistent();
    WorkerPreservesConsistency(EmptyService, "france", fetcher, None, Some(fault), now);
    assert Db.History(s.db, "france") == [Db.NewEntry("france", Db.Failed, now, fault)];
    assert !HasCompletedRow(s.db, "france");
  }


  /** "france" fetched and saved on an empty service: one document and one COMPLETED row. */
  lemma FranceCompletedAt(doc: Json, now: int)
    ensures var s := FetchAndSaveCountryData(EmptyService, "france", k => Fetched(doc), None, None, now).0;
            && s.db.countries == map["france" := doc]
            && Db.History(s.db, "france") == [Db.NewEntry("france", Db.Completed, now, "")]
            && Consistent(s)
  {
    StandardizeExamples();
    StandardizeIdempotent("France");
    var good: Key -> FetchResult := k => Fetched(doc);
    EmptyServiceIsConsistent();
    WorkerPreservesConsistency(EmptyService, "france", good, None, None, now);
  }

  /** A FAILED row put at the timestamp of a key's only row replaces it. */
  lemma FailedRowReplacesSameMillisecond(t: Db.Tables, k: Key, e: Db.StatusEntry, now: int, msg: string)
    requires Db.History(t, k) == [e] && e.timestamp == now
    ensures Db.History(Db.SaveOperationStatus(t, k, Db.Failed, now, msg), k) == [Db.NewEntry(k, Db.Failed, now, msg)]
  {
    var failed := Db.NewEntry(k, Db.Failed, now, msg);
    Db.PutRowFacts(t, failed);
    assert Db.PutEntry([e], failed) == [failed];
  }

  /**
   * A failed fetch in the same millisecond as a stored key's only row, a COMPLETED
   * one: the FAILED row replaces it, and the document keeps no COMPLETED row.
   */
  lemma FailureAtSameMillisecond(s1: Service, k: Key, doc: Json, bad: Key -> FetchResult, now: int)
    requires Settled(s1) && IsCanonical(k) && bad(k).FetchError?
    requires s1.db.countries == map[k := doc]
    requires Db.History(s1.db, k) == [Db.NewEntry(k, Db.Completed, now, "")]
    ensures var s2 := FetchAndSaveCountryData(s1, k, bad, None, None, now).0;
            && s2.db.countries == map[k := doc]
            && Settled(s2)
            && !Consistent(s2)
  {
    StandardizeFixesExactlyCanonical(k);
    var s2 := FetchAndSaveCountryData(s1, k, bad, None, None, now).0;
    var failed := Db.NewEntry(k, Db.Failed, now, bad(k).message);
    assert s2.db == Db.SaveOperationStatus(s1.db, k, Db.Failed, now, bad(k).message);
    FailedRowReplacesSameMillisecond(s1.db, k, Db.NewEntry(k, Db.Completed, now, ""), now, bad(k).message);
    assert Db.History(s2.db, k) == [failed];
    assert !HasCompletedRow(s2.db, k);
    assert HasOutcomeRow(s2.db, k) by { assert failed in Db.History(s2.db, k); }
  }

  /**
   * Without a fresh clock the worker can break consistency: a redelivery whose fetch
   * fails in the same millisecond as the COMPLETED row puts its FAILED row on the same
   * (country, timestamp) key, so the COMPLETED row backing the stored document is gone.
   */
  lemma SameMillisecondRedeliveryBreaksConsistency(doc: Json, msg: string, now: int)
    requires Truthy(doc)
    ensures var s1 := FetchAndSaveCountryData(EmptyService, "france", k => Fetched(doc), None, None, now).0;
            var s2 := FetchAndSaveCountryData(s1, "france", k => FetchError(msg), None, None, now).0;
            && Consistent(s1)
            && GetCountryData(s2, "france") == Ok(doc)
            && Settled(s2)
            && !Consistent(s2)
  {
    StandardizeExamples();
    StandardizeIdempotent("France");
    var good: Key -> FetchResult := k => Fetched(doc);
    var bad: Key -> FetchResult := k => FetchError(msg);
    FranceCompletedAt(doc, now);
    var s1 := FetchAndSaveCountryData(EmptyService, "france", good, None, None, now).0;
    FailureAtSameMillisecond(s1, "france", doc, bad, now);
  }

  // ---------------------------------------------------------------------------
  // Scenarios

  /** "France" on an empty service: PENDING under the key "france", one PENDING row, one message. */
  lemma FirstRequestForFrance(now: int)
    ensures var (s, r) := FetchCountryData(EmptyService, "France", now, None);
            && r == Ok(FetchResponse("france", Db.Pending))
            && Db.History(s.db, "france") == [Db.StatusEntry("france", now, Db.Pending, None)]
            && s.queue == [WorkItem("france")]
  {
    StandardizeExamples();
    RequestEnqueuesOnce(EmptyService, "France", now);
  }

  /** The worker then fetches a document for "france": it is served, and the status is COMPLETED. */
  lemma FranceFetchedAndServed(now: int, later: int, doc: Json)
    requires now < later && Truthy(doc)
    ensures var s1 := FetchCountryData(EmptyService, "France", now, None).0;
            var s2 := FetchAndSaveCountryData(s1, "france", k => Fetched(doc), None, None, later).0;
            && GetCountryData(s2, "France") == Ok(doc)
            && CheckOperationStatus(s2, "France") == Ok(Db.StatusEntry("france", later, Db.Completed, None))
  {
    StandardizeExamples();
    FirstRequestForFrance(now);
    StandardizeIdempotent("France");
    var s1 := FetchCountryData(EmptyService, "France", now, None).0;
    var fetcher: Key -> FetchResult := k => Fetched(doc);
    assert Db.Fresh(s1.db, "france", later);
    WorkerSuccessCompletes(s1, "france", fetcher, later);
    var s2 := FetchAndSaveCountryData(s1, "france", fetcher, None, None, later).0;
    assert "france" !in s1.db.countries;
    assert Db.GetCountryData(s2.db, "france") == Some(doc);
  }

  /** The upstream reports not found for "france": FAILED with the message is current, nothing is stored, the item stays queued. */
  lemma FranceNotFound(now: int, later: int, msg: string)
    requires now < later && msg != ""
    ensures var s1 := FetchCountryData(EmptyService, "France", now, None).0;
            var s2 := FetchAndSaveCountryData(s1, "france", k => FetchError(msg), None, None, later).0;
            && Db.GetOperationStatus(s2.db, "france") == Some(Db.StatusEntry("france", later, Db.Failed, Some(msg)))
            && !HasData(s2.db, "france")
            && s2.queue == [WorkItem("france")]
  {
    StandardizeExamples();
    FirstRequestForFrance(now);
    StandardizeIdempotent("France");
    var s1 := FetchCountryData(EmptyService, "France", now, None).0;
    WorkerFailureRecordsError(s1, "france", k => FetchError(msg), later);
  }

  /** After that failure the status reads FAILED with the message, and a new request enqueues again. */
  lemma FranceNotFoundThenRetried(now: int, later: int, again: int, msg: string)
    requires now < later && msg != ""
    ensures var s1 := FetchCountryData(EmptyService, "France", now, None).0;
            var s2 := FetchAndSaveCountryData(s1, "france", k => FetchError(msg), None, None, later).0;
            var s3 := FetchCountryData(s2, "France", again, None).0;
            && CheckOperationStatus(s2, "France") == Ok(Db.StatusEntry("france", later, Db.Failed, Some(msg)))
            && s3.queue == [WorkItem("france"), WorkItem("france")]
  {
    FranceNotFound(now, later, msg);
    StandardizeExamples();
    var s1 := FetchCountryData(EmptyService, "France", now, None).0;
    var s2 := FetchAndSaveCountryData(s1, "france", k => FetchError(msg), None, None, later).0;
    RequestAfterFailureRetries(s2, "France", again);
  }
}

=== FILE: db.dfy ===
/**
 * `DynamoDBService`: the country table, written at most once per key, and the
 * operation-status table, keyed by (country, timestamp) and read newest first.
 */
module Db {
  import opened Base
  import opened Json

  type Key = string

  datatype Status = Pending | Completed | Failed

  /** One row of the operation-status table; `error` is present only when a non-empty error was given. */
  datatype StatusEntry = StatusEntry(country: Key, timestamp: int, status: Status, error: Option<string>)

  /** Timestamps strictly increase along the history: the table's sort-key order. */
  predicate Sorted(log: seq<StatusEntry>) {
    forall i, j :: 0 <= i < j < |log| ==> log[i].timestamp < log[j].timestamp
  }

  /** The status rows of one country, in ascending timestamp order. */
  type Log = log: seq<StatusEntry> | Sorted(log) witness []

  datatype Tables = Tables(countries: map<Key, Json>, operations: map<Key, Log>)

  const EmptyTables := Tables(map[], map[])

  /** Every status row is filed under its own country. */
  predicate WellFormed(db: Tables) {
    forall k :: k in db.operations ==> forall e :: e in db.operations[k] ==> e.country == k
  }

  /** All status rows of `k`, oldest first. */
  function History(db: Tables, k: Key): Log {
    if k in db.operations then db.operations[k] else []
  }

  /** `e` is a row of `log` whose timestamp no other row exceeds. */
  predicate IsNewest(log: seq<StatusEntry>, e: StatusEntry) {
    e in log && forall x :: x in log ==> x.timestamp <= e.timestamp
  }

  /** `now` lies after every timestamp recorded for `k`: the clock has moved on. */
  predicate Fresh(db: Tables, k: Key, now: int) {
    forall x :: x in History(db, k) ==> x.timestamp < now
  }

  // ---------------------------------------------------------------------------
  // The country table

  /**
   * `save_country_data`: a put conditioned on the key being absent. An existing
   * key makes the condition fail, which is reported as `false`; any other client
   * error (`fault`) is raised and nothing is written.
   */
  function SaveCountryData(db: Tables, k: Key, doc: Json, fault: Option<string>): (r: (Tables, Result<bool, string>))
    ensures r.0.operations == db.operations
    ensures fault.Some? ==> r == (db, Err(fault.value))
    ensures fault.None? ==> r.1 == Ok(k !in db.countries)
    ensures r.1 == Ok(true) ==> r.0.countries == db.countries[k := doc]
    ensures r.1 != Ok(true) ==> r.0 == db
  {
    if fault.Some? then (db, Err(fault.value))
    else if k in db.countries then (db, Ok(false))
    else (db.(countries := db.countries[k := doc]), Ok(true))
  }

  /** `get_country_data`: the stored document, or None. */
  function GetCountryData(db: Tables, k: Key): (r: Option<Json>)
    ensures r.Some? <==> k in db.countries
    ensures r.Some? ==> r.value == db.countries[k]
  {
    if k in db.countries then Some(db.countries[k]) else None
  }

  /** The first write wins: a later save of the same key returns false and keeps the first document. */
  lemma WriteOnce(db: Tables, k: Key, a: Json, b: Json)
    requires k !in db.countries
    ensures var (db1, r1) := SaveCountryData(db, k, a, None);
            var (db2, r2) := SaveCountryData(db1, k, b, None);
            r1 == Ok(true) && r2 == Ok(false) && db2 == db1 && GetCountryData(db2, k) == Some(a)
  {
  }

  /** Once a key holds a document, no save of any document changes what is read back. */
  lemma StoredDocumentIsFinal(db: Tables, k: Key, doc: Json, fault: Option<string>)
    requires k in db.countries
    ensures GetCountryData(SaveCountryData(db, k, doc, fault).0, k) == GetCountryData(db, k)
  {
  }

  // ---------------------------------------------------------------------------
  // The operation-status table

  /** A row earlier than every row of a sorted log can be put in front of it. */
  lemma PrependKeepsSorted(x: StatusEntry, log: Log)
    requires forall y :: y in log ==> x.timestamp < y.timestamp
    ensures Sorted([x] + log)
  {
    var r := [x] + log;
    forall i, j | 0 <= i < j < |r| ensures r[i].timestamp < r[j].timestamp {
      if i == 0 { assert r[j] == log[j - 1]; }
    }
  }

  /**
   * DynamoDB `put_item` on the (country, timestamp) key: the row lands in timestamp
   * order, replacing a row that has the same timestamp.
   */
  function PutEntry(log: Log, e: StatusEntry): (r: Log)
    ensures e in r
    ensures |log| <= |r| <= |log| + 1
    ensures forall x :: x in r ==> x == e || (x in log && x.timestamp != e.timestamp)
    ensures forall x :: x in log && x.timestamp != e.timestamp ==> x in r
    decreases |log|
  {
    if log == [] then [e]
    else if e.timestamp <= log[0].timestamp then
      var tail := if e.timestamp < log[0].timestamp then log else log[1..];
      LaterRows(log, e);
      PrependKeepsSorted(e, tail);
      [e] + tail
    else
      var rest := PutEntry(log[1..], e);
      HeadBeforeRest(log, e, rest);
      PrependKeepsSorted(log[0], rest);
      [log[0]] + rest
  }

  /** When `e` is not later than the head: what follows `e` in the put. */
  lemma LaterRows(log: Log, e: StatusEntry)
    requires log != [] && e.timestamp <= log[0].timestamp
    ensures var tail := if e.timestamp < log[0].timestamp then log else log[1..];
            && (forall y :: y in tail ==> e.timestamp < y.timestamp)
            && (forall x :: x in tail ==> x in log && x.timestamp != e.timestamp)
            && (forall x :: x in log && x.timestamp != e.timestamp ==> x in tail)
  {
    forall y | y in log ensures log[0].timestamp <= y.timestamp && (y != log[0] ==> y in log[1..] && log[0].timestamp < y.timestamp) {
      var j :| 0 <= j < |log| && log[j] == y;
      if j > 0 { assert log[1..][j - 1] == y; }
    }
  }

  /** When `e` is later than the head, the head stays in front of the rest of the put. */
  lemma HeadBeforeRest(log: Log, e: StatusEntry, rest: Log)
    requires log != [] && log[0].timestamp < e.timestamp
    requires forall x :: x in rest ==> x == e || x in log[1..]
    ensures forall y :: y in rest ==> log[0].timestamp < y.timestamp
  {
    forall y | y in rest ensures log[0].timestamp < y.timestamp {
      if y != e {
        var j :| 0 <= j < |log[1..]| && log[1..][j] == y;
        assert log[j + 1] == y;
      }
    }
  }

  /** Elements of a sorted log are ordered the way their positions are. */
  lemma SortedHeadIsLeast(log: Log, x: StatusEntry)
    requires x in log
    ensures log[0].timestamp <= x.timestamp
    ensures x != log[0] ==> x in log[1..]
  {
    var j :| 0 <= j < |log| && log[j] == x;
    if j > 0 {
      assert log[1..][j - 1] == x;
    }
  }

  /** Of two sorted logs with the same first row, a row of the first's tail that the second holds is in the second's tail. */
  lemma TailRowStaysInTail(a: Log, b: Log, x: StatusEntry)
    requires a != [] && b != [] && a[0] == b[0]
    requires forall y :: y in a ==> y in b
    requires x in a[1..]
    ensures x in b[1..]
  {
    var j :| 0 <= j < |a[1..]| && a[1..][j] == x;
    assert a[j + 1] == x;
    assert a[0].timestamp < x.timestamp;
    SortedHeadIsLeast(b, x);
  }

  /** A sorted log is determined by the rows it holds. */
  lemma {:induction false} SortedLogsWithSameRowsAreEqual(a: Log, b: Log)
    requires forall x :: x in a <==> x in b
    ensures a == b
    decreases |a|
  {
    if a == [] {
      forall x ensures multiset(b)[x] == 0 {
        assert x !in b;
      }
      assert multiset(b) == multiset{};
      assert |b| == |multiset(b)| == 0;
    } else {
      assert a[0] in b;
      SortedHeadIsLeast(b, a[0]);
      SortedHeadIsLeast(a, b[0]);
      assert a[0] == b[0];
      var a', b' := a[1..], b[1..];
      forall x
        ensures x in a' <==> x in b'
      {
        if x in a' { TailRowStaysInTail(a, b, x); }
        if x in b' { TailRowStaysInTail(b, a, x); }
      }
      SortedLogsWithSameRowsAreEqual(a', b');
      assert a == [a[0]] + a' && b == [b[0]] + b';
    }
  }

  /** When the new row is later than every row, the put is an append. */
  lemma PutFreshAppends(log: Log, e: StatusEntry)
    requires forall x :: x in log ==> x.timestamp < e.timestamp
    ensures PutEntry(log, e) == log + [e]
  {
    var r := PutEntry(log, e);
    var a: seq<StatusEntry> := log + [e];
    assert Sorted(a) by {
      forall i, j | 0 <= i < j < |a| ensures a[i].timestamp < a[j].timestamp {
        if j == |log| { assert a[i] in log; }
      }
    }
    SortedLogsWithSameRowsAreEqual(r, a);
  }

  /** Rows at distinct timestamps reach the same table whichever is put first. */
  lemma PutEntryCommutes(log: Log, e1: StatusEntry, e2: StatusEntry)
    requires e1.timestamp != e2.timestamp
    ensures PutEntry(PutEntry(log, e1), e2) == PutEntry(PutEntry(log, e2), e1)
  {
    SortedLogsWithSameRowsAreEqual(PutEntry(PutEntry(log, e1), e2), PutEntry(PutEntry(log, e2), e1));
  }

  /** The newest row is the last one, and a log has at most one newest row. */
  lemma NewestIsLast(log: Log)
    requires log != []
    ensures forall e :: IsNewest(log, e) <==> e == log[|log| - 1]
  {
    var last := log[|log| - 1];
    forall x | x in log ensures x.timestamp <= last.timestamp {
      var j :| 0 <= j < |log| && log[j] == x;
    }
    forall e | IsNewest(log, e) ensures e == last {
      var j :| 0 <= j < |log| && log[j] == e;
      assert last.timestamp <= e.timestamp;
    }
  }

  /** The row `save_operation_status` writes: `error` only when one was given and is non-empty. */
  function NewEntry(k: Key, status: Status, now: int, error: string): (e: StatusEntry)
    ensures e.country == k && e.timestamp == now && e.status == status
    ensures e.error.Some? <==> error != ""
    ensures e.error.Some? ==> e.error.value == error
  {
    StatusEntry(k, now, status, if error != "" then Some(error) else None)
  }

  /** The table with the log of `c` replaced by `l`. */
  function SetLog(db: Tables, c: Key, l: Log): Tables {
    db.(operations := db.operations[c := l])
  }

  /** The table after `put_item` of row `e`. */
  function PutRow(db: Tables, e: StatusEntry): Tables {
    SetLog(db, e.country, PutEntry(History(db, e.country), e))
  }

  /**
   * `save_operation_status(k, status, error)` at clock reading `now` (milliseconds).
   * An empty `error` stands for the default `None`: both are falsy.
   */
  function SaveOperationStatus(db: Tables, k: Key, status: Status, now: int, error: string): (r: Tables)
    ensures r.countries == db.countries
    ensures forall k' :: k' != k ==> History(r, k') == History(db, k')
    ensures |History(db, k)| <= |History(r, k)| <= |History(db, k)| + 1
    ensures Fresh(db, k, now) ==> History(r, k) == History(db, k) + [NewEntry(k, status, now, error)]
    ensures WellFormed(db) ==> WellFormed(r)
  {
    var e := NewEntry(k, status, now, error);
    PutRowFacts(db, e);
    if Fresh(db, k, now) then PutFreshAppends(History(db, k), e); PutRow(db, e) else PutRow(db, e)
  }

  /** A put touches only the row's own country, and keeps rows filed under their country. */
  lemma PutRowFacts(db: Tables, e: StatusEntry)
    ensures PutRow(db, e).countries == db.countries
    ensures forall k :: k != e.country ==> History(PutRow(db, e), k) == History(db, k)
    ensures History(PutRow(db, e), e.country) == PutEntry(History(db, e.country), e)
    ensures WellFormed(db) ==> WellFormed(PutRow(db, e))
  {
    var r := PutRow(db, e);
    var c := e.country;
    if WellFormed(db) {
      forall k, x | k in r.operations && x in r.operations[k] ensures x.country == k {
        if k != c {
          assert r.operations[k] == db.operations[k];
        } else {
          assert x == e || x in History(db, c);
        }
      }
    }
  }

  /**
   * Whatever the clock says, a status write adds its row, drops only a row with the
   * same timestamp, and keeps every other row of the key.
   */
  lemma SaveKeepsRowsAtOtherTimestamps(db: Tables, k: Key, status: Status, now: int, error: string)
    ensures NewEntry(k, status, now, error) in History(SaveOperationStatus(db, k, status, now, error), k)
    ensures forall x :: x in History(SaveOperationStatus(db, k, status, now, error), k) ==>
                          x == NewEntry(k, status, now, error) || (x in History(db, k) && x.timestamp != now)
    ensures forall x :: x in History(db, k) && x.timestamp != now ==> x in History(SaveOperationStatus(db, k, status, now, error), k)
  {
    SaveIsPutRow(db, k, status, now, error);
  }

  /**
   * `get_operation_status`: the query newest-first with limit 1, i.e. the row with
   * the greatest timestamp, or None when the country has no rows.
   */
  function GetOperationStatus(db: Tables, k: Key): (r: Option<StatusEntry>)
    ensures r.None? <==> History(db, k) == []
    ensures r.Some? ==> IsNewest(History(db, k), r.value)
  {
    var log := History(db, k);
    if log == [] then None
    else
      NewestIsLast(log);
      Some(log[|log| - 1])
  }

  /** `is_operation_in_progress`: the newest row exists and says PENDING. */
  function IsOperationInProgress(db: Tables, k: Key): (b: bool)
    ensures b <==> History(db, k) != [] && forall e :: IsNewest(History(db, k), e) ==> e.status == Pending
  {
    var s := GetOperationStatus(db, k);
    if s.Some? then
      NewestIsLast(History(db, k));
      s.value.status == Pending
    else false
  }

  /** Writing at a fresh clock makes the new row the current status, and only PENDING makes it in progress. */
  lemma CurrentStatusAfterFreshSave(db: Tables, k: Key, status: Status, now: int, error: string)
    requires Fresh(db, k, now)
    ensures GetOperationStatus(SaveOperationStatus(db, k, status, now, error), k) == Some(NewEntry(k, status, now, error))
    ensures IsOperationInProgress(SaveOperationStatus(db, k, status, now, error), k) <==> status == Pending
  {
  }

  /** Two writes at distinct timestamps leave the same table in either arrival order. */
  lemma SavesCommute(db: Tables, k: Key, s1: Status, t1: int, e1: string, s2: Status, t2: int, e2: string)
    requires t1 != t2
    ensures SaveOperationStatus(SaveOperationStatus(db, k, s1, t1, e1), k, s2, t2, e2)
         == SaveOperationStatus(SaveOperationStatus(db, k, s2, t2, e2), k, s1, t1, e1)
  {
    var a, b := NewEntry(k, s1, t1, e1), NewEntry(k, s2, t2, e2);
    var h := History(db, k);
    PutEntryCommutes(h, a, b);
    SaveIsPutRow(db, k, s1, t1, e1);
    SaveIsPutRow(db, k, s2, t2, e2);
    SaveIsPutRow(PutRow(db, a), k, s2, t2, e2);
    SaveIsPutRow(PutRow(db, b), k, s1, t1, e1);
    SetLogTwice(db, k, PutEntry(h, a), PutEntry(PutEntry(h, a), b));
    SetLogTwice(db, k, PutEntry(h, b), PutEntry(PutEntry(h, b), a));
  }

  lemma SaveIsPutRow(db: Tables, k: Key, status: Status, now: int, error: string)
    ensures SaveOperationStatus(db, k, status, now, error) == PutRow(db, NewEntry(k, status, now, error))
  {
  }

  /** Replacing a key's log twice keeps only the second. */
  lemma SetLogTwice(db: Tables, c: Key, l1: Log, l2: Log)
    ensures History(SetLog(db, c, l1), c) == l1
    ensures SetLog(SetLog(db, c, l1), c, l2) == SetLog(db, c, l2)
  {
    assert db.operations[c := l1][c := l2] == db.operations[c := l2];
  }

  /**
   * Two writes later than everything recorded, at t1 < t2: the current status is the
   * one written at t2, whichever write the table received first.
   */
  lemma LatestTimestampWins(db: Tables, k: Key, s1: Status, t1: int, e1: string, s2: Status, t2: int, e2: string)
    requires Fresh(db, k, t1) && t1 < t2
    ensures GetOperationStatus(SaveOperationStatus(SaveOperationStatus(db, k, s1, t1, e1), k, s2, t2, e2), k)
         == Some(NewEntry(k, s2, t2, e2))
    ensures GetOperationStatus(SaveOperationStatus(SaveOperationStatus(db, k, s2, t2, e2), k, s1, t1, e1), k)
         == Some(NewEntry(k, s2, t2, e2))
  {
    var db1 := SaveOperationStatus(db, k, s1, t1, e1);
    CurrentStatusAfterFreshSave(db1, k, s2, t2, e2);
    SavesCommute(db, k, s1, t1, e1, s2, t2, e2);
  }
}

=== FILE: json.dfy ===
/** JSON documents as the service stores and returns them, with Python's truthiness. */
module Json {

  /** A JSON value. Numbers are integers: floats (and their Decimal conversion) are not modelled. */
  datatype Json =
    | JNull
    | JBool(b: bool)
    | JInt(i: int)
    | JString(s: string)
    | JArray(items: seq<Json>)
    | JObject(fields: map<string, Json>)

  /** The values Python treats as false among those `json.loads` produces: None, False, 0, "", [] and {}. */
  const FalsyValues: set<Json> := {JNull, JBool(false), JInt(0), JString(""), JArray([]), JObject(map[])}

  /** Python's `bool(v)`, case by case on the value's type. */
  function Truthy(v: Json): (b: bool)
    ensures b <==> v !in FalsyValues
  {
    match v
    case JNull => false
    case JBool(b) => b
    case JInt(i) => i != 0
    case JString(s) => s != ""
    case JArray(items) => items != []
    case JObject(fields) => fields != map[]
  }
}

=== FILE: names.dfy ===
/**
 * Country identifiers: `CountryService.standardize_country_identifier` and
 * `CountryService.validate_country_name`. Characters are treated as ASCII:
 * Python's `lower()` and `isalpha()` also act on the rest of Unicode.
 */
module Names {

  predicate IsUpper(c: char) {
    'A' <= c <= 'Z'
  }

  predicate IsAsciiLetter(c: char) {
    'A' <= c <= 'Z' || 'a' <= c <= 'z'
  }

  /** `str.lower()` on one character. */
  function LowerChar(c: char): (d: char)
    ensures !IsUpper(d)
    ensures IsAsciiLetter(d) <==> IsAsciiLetter(c)
    ensures !IsUpper(c) ==> d == c
    ensures IsUpper(c) ==> d as int == c as int + 32
  {
    if IsUpper(c) then (c as int + 32) as char else c
  }

  /** `str.lower()`: every character case-folded, nothing added or removed. */
  function Lower(s: string): (r: string)
    ensures |r| == |s|
  {
    seq(|s|, i requires 0 <= i < |s| => LowerChar(s[i]))
  }

  /** `str.replace(from, to)` for single characters. */
  function ReplaceChar(s: string, from: char, to: char): (r: string)
    ensures |r| == |s|
  {
    seq(|s|, i requires 0 <= i < |s| => if s[i] == from then to else s[i])
  }

  /** A canonical key: no space and no upper-case letter. */
  predicate IsCanonical(s: string) {
    forall i :: 0 <= i < |s| ==> s[i] != ' ' && !IsUpper(s[i])
  }

  /** `standardize_country_identifier`: lower-case the name, then turn every space into '-'. */
  function Standardize(name: string): (key: string)
    ensures |key| == |name|
    ensures IsCanonical(key)
    ensures forall i :: 0 <= i < |name| && name[i] == ' ' ==> key[i] == '-'
    ensures forall i :: 0 <= i < |name| && name[i] != ' ' ==> key[i] == LowerChar(name[i])
  {
    ReplaceChar(Lower(name), ' ', '-')
  }

  /** A name is its own key exactly when it is already canonical. */
  lemma StandardizeFixesExactlyCanonical(s: string)
    ensures Standardize(s) == s <==> IsCanonical(s)
  {
    if IsCanonical(s) {
      var k := Standardize(s);
      assert forall i :: 0 <= i < |s| ==> k[i] == s[i];
    }
  }

  /** Standardizing a key again changes nothing. */
  lemma StandardizeIdempotent(s: string)
    ensures Standardize(Standardize(s)) == Standardize(s)
  {
    StandardizeFixesExactlyCanonical(Standardize(s));
  }

  lemma StandardizeExamples()
    ensures Standardize("United States") == "united-states"
    ensures Standardize("North Korea") == "north-korea"
    ensures Standardize("France") == "france"
  {
  }

  /** The characters `validate_country_name` admits: `c.isalpha() or c == '-'`. */
  predicate IsNameChar(c: char) {
    IsAsciiLetter(c) || c == '-'
  }

  /** More than three characters, each a letter or a hyphen. */
  predicate ValidCountryName(s: string) {
    |s| > 3 && forall i :: 0 <= i < |s| ==> IsNameChar(s[i])
  }

  /** `validate_country_name`: the length test, then `all(...)` over the characters, left to right. */
  method ValidateCountryName(s: string) returns (ok: bool)
    ensures ok <==> ValidCountryName(s)
  {
    if |s| <= 3 {
      return false;
    }
    var i := 0;
    while i < |s|
      invariant 0 <= i <= |s|
      invariant forall j :: 0 <= j < i ==> IsNameChar(s[j])
    {
      if !IsNameChar(s[i]) {
        return false;
      }
      i := i + 1;
    }
    return true;
  }

  lemma ValidCountryNameExamples()
    ensures !ValidCountryName("ab")
    ensures !ValidCountryName("fr")
    ensures !ValidCountryName("123")
    ensures !ValidCountryName("france123")
    ensures !ValidCountryName("france!")
    ensures ValidCountryName("costa-rica")
    ensures ValidCountryName("france")
  {
    assert !IsNameChar("france123"[6]);
    assert !IsNameChar("france!"[6]);
  }

  /**
   * A valid name keeps its validity and its length through standardization and
   * becomes its lower-case form: it has no space for `replace` to act on.
   */
  lemma ValidNameStandardizes(s: string)
    requires ValidCountryName(s)
    ensures Standardize(s) == Lower(s)
    ensures ValidCountryName(Standardize(s))
    ensures Standardize(s) != ""
  {
    var k := Standardize(s);
    assert forall i :: 0 <= i < |s| ==> k[i] == Lower(s)[i];
  }
}

=== FILE: pipeline.dfy ===
/**
 * The deployed wiring of the two halves: messages sent by `fetch_country_data` are
 * delivered to `handle_sqs_message`, whose worker is `fetch_and_save_country_data`
 * on the same tables. The clock moves on by one millisecond per worker call.
 */
module Pipeline {
  import opened Base
  import opened Json
  import opened Names
  import Db
  import opened Coordinator
  import opened Consumer

  /** The body `json.dumps({'country': key})` of a queued item, as the handler parses it back. */
  function BodyOf(item: WorkItem): Body {
    Object(Some(item.country))
  }

  /** The message a queued key is sent as dispatches the worker on that same key; an empty key is rejected as missing. */
  lemma QueuedKeyDispatchesToItself(item: WorkItem)
    ensures item.country != "" ==> ParseBody(BodyOf(item)) == Dispatch(item.country)
    ensures item.country == "" ==> ParseBody(BodyOf(item)) == Reject(MissingCountry)
  {
  }

  /** The tables and queue together with the clock reading the next worker call will use. */
  datatype World = World(svc: Service, clock: int)

  /** The errors the worker's conditional put and COMPLETED write raise on one call; `NoFaults` when neither does. */
  datatype WorkerFaults = WorkerFaults(save: Option<string>, completed: Option<string>)

  const NoFaults := WorkerFaults(None, None)

  /**
   * `country_service.fetch_and_save_country_data` as the handler's worker, with one
   * fetch oracle and one fault oracle read at the clock reading of each call.
   */
  function ServiceWorker(fetcher: Key -> FetchResult, faults: int -> WorkerFaults): (worker: (World, string) -> (World, WorkerOutcome))
    ensures forall w, c :: worker(w, c).1.Returned?
    ensures forall w, c :: worker(w, c).0.svc.queue == w.svc.queue
    ensures forall w, c :: worker(w, c).0.clock == w.clock + 1
  {
    var worker := (w: World, c: string) => WorkerCall(w, c, fetcher, faults(w.clock));
    assert forall w, c :: worker(w, c) == WorkerCall(w, c, fetcher, faults(w.clock));
    worker
  }

  /** One worker call under the faults of its clock reading; the clock moves on by one. */
  function WorkerCall(w: World, c: string, fetcher: Key -> FetchResult, f: WorkerFaults): (res: (World, WorkerOutcome))
    ensures res.0.svc.queue == w.svc.queue && res.0.clock == w.clock + 1
    ensures res.1.Returned?
  {
    var r := FetchAndSaveCountryData(w.svc, c, fetcher, f.save, f.completed, w.clock);
    (World(r.0, w.clock + 1), Returned(r.1))
  }

  /** The clock is past every recorded timestamp. */
  ghost predicate ClockAhead(w: World) {
    forall k :: Db.Fresh(w.svc.db, k, w.clock)
  }

  /** No COMPLETED write raises, at any clock reading. */
  ghost predicate CompletedWritesSucceed(faults: int -> WorkerFaults) {
    forall t :: faults(t).completed.None?
  }

  /** One worker call keeps the clock ahead of the tables. */
  lemma WorkerKeepsClockAhead(w: World, c: string, fetcher: Key -> FetchResult, faults: int -> WorkerFaults)
    requires ClockAhead(w)
    ensures ClockAhead(ServiceWorker(fetcher, faults)(w, c).0)
  {
    var k := Standardize(c);
    var f := faults(w.clock);
    var w' := ServiceWorker(fetcher, faults)(w, c).0;
    var row := WorkerRow(k, FetchAndSaveCountryData(w.svc, c, fetcher, f.save, f.completed, w.clock).1, w.clock,
                         FailureText(fetcher(k), f.save, f.completed));
    assert Db.Fresh(w.svc.db, k, w.clock);
    forall k' ensures Db.Fresh(w'.svc.db, k', w'.clock) {
      assert Db.Fresh(w.svc.db, k', w.clock);
      if k' == k {
        assert Db.History(w'.svc.db, k) == Db.History(w.svc.db, k) + [row];
      }
    }
  }

  /**
   * A batch run by the handler sends no message and keeps the service settled, whatever
   * the fetches and the saves do; it keeps the service consistent as long as no
   * COMPLETED write raises.
   */
  lemma {:induction false} BatchPreservesConsistency(w: World, records: seq<Record>, fetcher: Key -> FetchResult,
                                                     faults: int -> WorkerFaults)
    requires Settled(w.svc) && ClockAhead(w)
    ensures var w' := Process(w, records, ServiceWorker(fetcher, faults)).0;
            Settled(w'.svc) && ClockAhead(w') && w'.svc.queue == w.svc.queue
    ensures Consistent(w.svc) && CompletedWritesSucceed(faults) ==>
              Consistent(Process(w, records, ServiceWorker(fetcher, faults)).0.svc)
    decreases |records|
  {
    if records != [] {
      var worker := ServiceWorker(fetcher, faults);
      var w1 := Step(w, records[0], worker).0;
      if ParseBody(records[0].body).Dispatch? {
        var c := ParseBody(records[0].body).country;
        var f := faults(w.clock);
        WorkerPreservesConsistency(w.svc, c, fetcher, f.save, f.completed, w.clock);
        WorkerKeepsClockAhead(w, c, fetcher, faults);
      }
      BatchPreservesConsistency(w1, records[1..], fetcher, faults);
    }
  }

  /**
   * A message the service queued, delivered while the clock is ahead and fetched
   * successfully, succeeds; its key then holds a document and its status is COMPLETED.
   */
  lemma DeliveredItemCompletes(w: World, i: nat, receipt: Receipt, fetcher: Key -> FetchResult, faults: int -> WorkerFaults)
    requires Settled(w.svc) && ClockAhead(w)
    requires faults(w.clock) == NoFaults
    requires i < |w.svc.queue| && w.svc.queue[i].country != ""
    requires fetcher(w.svc.queue[i].country).Fetched?
    ensures var k := w.svc.queue[i].country;
            var (w', v) := Step(w, Record(BodyOf(w.svc.queue[i]), receipt), ServiceWorker(fetcher, faults));
            && v == Succeeded(Record(BodyOf(w.svc.queue[i]), receipt))
            && k in w'.svc.db.countries
            && (k !in w.svc.db.countries ==> Db.GetCountryData(w'.svc.db, k) == Some(fetcher(k).document))
            && CheckOperationStatus(w'.svc, k) == Ok(Db.StatusEntry(k, w.clock, Db.Completed, None))
  {
    var k := w.svc.queue[i].country;
    StandardizeFixesExactlyCanonical(k);
    assert Db.Fresh(w.svc.db, k, w.clock);
    WorkerSuccessCompletes(w.svc, k, fetcher, w.clock);
  }

  /** A request at the current clock reading, with the clock then moved on, keeps the clock ahead. */
  lemma RequestKeepsClockAhead(svc: Service, name: string, now: int, sendFault: Option<string>)
    requires ClockAhead(World(svc, now))
    ensures ClockAhead(World(FetchCountryData(svc, name, now, sendFault).0, now + 1))
  {
    var k := Standardize(name);
    var s := FetchCountryData(svc, name, now, sendFault).0;
    var later := now + 1;
    forall k' ensures Db.Fresh(s.db, k', later) {
      assert Db.Fresh(svc.db, k', now);
      if k' == k && s != svc {
        assert s.db == Db.SaveOperationStatus(svc.db, k, Db.Pending, now, "");
        assert Db.History(s.db, k) == Db.History(svc.db, k) + [Db.NewEntry(k, Db.Pending, now, "")];
      }
    }
  }

  /** After the request for "France": one item queued for "france", a consistent service, and the clock ahead. */
  lemma FranceQueued(now: int)
    ensures var s1 := FetchCountryData(EmptyService, "France", now, None).0;
            && s1.queue == [WorkItem("france")]
            && Consistent(s1)
            && ClockAhead(World(s1, now + 1))
  {
    FirstRequestForFrance(now);
    RequestKeepsClockAhead(EmptyService, "France", now, None);
    EmptyServiceIsConsistent();
    RequestPreservesConsistency(EmptyService, "France", now, None);
  }

  /** The delivered item for "france", fetched successfully, succeeds; "France" is then served and COMPLETED. */
  lemma FranceDelivered(now: int, doc: Json, fetcher: Key -> FetchResult, faults: int -> WorkerFaults)
    requires Truthy(doc) && fetcher("france") == Fetched(doc) && faults(now + 1) == NoFaults
    ensures var s1 := FetchCountryData(EmptyService, "France", now, None).0;
            var r := Record(BodyOf(WorkItem("france")), "receipt1");
            var (w, v) := Step(World(s1, now + 1), r, ServiceWorker(fetcher, faults));
            && v.Succeeded?
            && GetCountryData(w.svc, "France") == Ok(doc)
            && CheckOperationStatus(w.svc, "France") == Ok(Db.StatusEntry("france", now + 1, Db.Completed, None))
  {
    var s1 := FetchCountryData(EmptyService, "France", now, None).0;
    var w0 := World(s1, now + 1);
    FranceQueued(now);
    assert s1.queue[0] == WorkItem("france");
    assert "france" !in s1.db.countries;
    DeliveredItemCompletes(w0, 0, "receipt1", fetcher, faults);
    StandardizeExamples();
    StandardizeIdempotent("France");
  }

  /**
   * End to end: "France" is requested on an empty service, its message is delivered
   * and the fetch returns a document. The batch raises nothing and deletes nothing,
   * the document is served under "France", and the status is COMPLETED.
   */
  lemma FranceEndToEnd(now: int, doc: Json, fetcher: Key -> FetchResult, faults: int -> WorkerFaults, deleteOk: Receipt -> bool)
    requires Truthy(doc) && fetcher("france") == Fetched(doc) && faults(now + 1) == NoFaults
    ensures var s1 := FetchCountryData(EmptyService, "France", now, None).0;
            var records := [Record(BodyOf(WorkItem("france")), "receipt1")];
            var (w, out) := Handle(World(s1, now + 1), records, ServiceWorker(fetcher, faults), deleteOk);
            && s1.queue == [WorkItem("france")]
            && out.raised.None? && out.deleted == []
            && GetCountryData(w.svc, "France") == Ok(doc)
            && CheckOperationStatus(w.svc, "France") == Ok(Db.StatusEntry("france", now + 1, Db.Completed, None))
  {
    var s1 := FetchCountryData(EmptyService, "France", now, None).0;
    FranceQueued(now);
    FranceDelivered(now, doc, fetcher, faults);
    SingleRecordBatch(World(s1, now + 1), Record(BodyOf(WorkItem("france")), "receipt1"), ServiceWorker(fetcher, faults), deleteOk);
  }
}

=== FILE: ratelimit.dfy ===
/**
 * The fixed-window request counter kept in Redis, and the decorator that guards an
 * endpoint with it. Redis is modelled as a map from key to value-with-expiry; the
 * client being unreachable is a flag, and a Redis call that raises is a `Fault`.
 */
module RateLimit {
  import opened Base

  /** A value held at a Redis key: a number `int()` accepts, or any other text. */
  datatype Cell = Num(n: int) | Text(s: string)

  /** A Redis key: its value and the expiry, in seconds, set when it was created. */
  datatype Counter = Counter(value: Cell, ttl: int)

  type Store = map<string, Counter>

  /** Which Redis call raises, if any. */
  datatype Fault = NoFault | GetFails | SetFails | IncrFails

  function Min(a: int, b: int): int { if a <= b then a else b }
  function Max(a: int, b: int): int { if a >= b then a else b }

  /** The key holds the number `n`. */
  predicate Holds(store: Store, key: string, n: int) {
    key in store && store[key].value == Num(n)
  }

  /** Only `key` may differ between the two stores. */
  ghost predicate OnlyTouches(before: Store, after: Store, key: string) {
    forall k :: k != key ==> (k in after <==> k in before) && (k in before ==> after[k] == before[k])
  }

  /**
   * `request_is_limited`: with no client, never limited. Otherwise read the counter;
   * if absent, create it at 1 with the window's expiry and allow; if at or above the
   * limit, refuse and change nothing; otherwise add one and allow. Any raising call
   * (including `int()` on a non-number, and a SET that Redis rejects because the
   * expiry is not positive) makes the request allowed, with no write done.
   */
  function RequestIsLimited(connected: bool, store: Store, key: string, limit: int, period: int, fault: Fault): (r: (Store, bool))
    ensures r.1 <==> connected && !fault.GetFails? && key in store && store[key].value.Num? && store[key].value.n >= limit
    ensures r.1 ==> r.0 == store
    ensures !connected || fault.GetFails? ==> r.0 == store
    ensures OnlyTouches(store, r.0, key)
    ensures key !in store ==> (key in r.0 <==> connected && period > 0 && (fault.NoFault? || fault.IncrFails?))
    ensures key !in store && key in r.0 ==> r.0[key] == Counter(Num(1), period)
    ensures key in store ==> key in r.0 && r.0[key].ttl == store[key].ttl
    ensures key in store && store[key].value.Num? ==>
              var n := store[key].value.n;
              Holds(r.0, key, n) || (n < limit && Holds(r.0, key, n + 1))
    ensures key in store && store[key].value.Num? && store[key].value.n < limit && fault.IncrFails? ==> r.0 == store
    ensures connected && !fault.GetFails? && !fault.IncrFails? && key in store && store[key].value.Num? && store[key].value.n < limit ==>
              Holds(r.0, key, store[key].value.n + 1)
    ensures key in store && store[key].value.Text? ==> r.0 == store
  {
    if !connected || fault.GetFails? then (store, false)
    else if key !in store then
      if fault.SetFails? || period <= 0 then (store, false)
      else (store[key := Counter(Num(1), period)], false)
    else
      match store[key].value
      case Text(_) => (store, false)
      case Num(n) =>
        if n >= limit then (store, true)
        else if fault.IncrFails? then (store, false)
        else (store[key := store[key].(value := Num(n + 1))], false)
  }

  /** The key's expiry passes: Redis drops it, and the next request opens a new window. */
  function Expire(store: Store, key: string): (r: Store)
    ensures key !in r
    ensures OnlyTouches(store, r, key)
  {
    store - {key}
  }

  /** `n` requests in one window on a reachable, fault-free Redis; the count of those allowed. */
  function RunWindow(store: Store, key: string, limit: int, period: int, n: nat): (r: (Store, nat))
    ensures r.1 <= n
    ensures OnlyTouches(store, r.0, key)
    decreases n
  {
    if n == 0 then (store, 0)
    else
      var (s1, limited) := RequestIsLimited(true, store, key, limit, period, NoFault);
      var (s2, allowed) := RunWindow(s1, key, limit, period, n - 1);
      (s2, allowed + if limited then 0 else 1)
  }

  /**
   * From a counter at `c`, `n` requests allow as many as fit under the limit, and
   * the counter ends at `c` plus that number: it never passes `limit` when `c` does not.
   */
  lemma {:induction false} WindowFromCount(store: Store, key: string, limit: int, period: int, n: nat, c: int)
    requires Holds(store, key, c)
    ensures var (s, allowed) := RunWindow(store, key, limit, period, n);
            && allowed == Min(n, Max(0, limit - c))
            && Holds(s, key, c + allowed)
            && s[key].ttl == store[key].ttl
    decreases n
  {
    if n > 0 {
      var (s1, limited) := RequestIsLimited(true, store, key, limit, period, NoFault);
      if c >= limit {
        assert s1 == store;
        WindowFromCount(s1, key, limit, period, n - 1, c);
      } else {
        assert Holds(s1, key, c + 1);
        WindowFromCount(s1, key, limit, period, n - 1, c + 1);
      }
    }
  }

  /**
   * A fresh window with limit at least one: of `n` requests exactly `min(n, limit)` are
   * allowed, and the counter ends at that number, so it never exceeds the limit.
   */
  lemma WindowAllowsExactlyLimit(store: Store, key: string, limit: int, period: int, n: nat)
    requires key !in store && limit >= 1 && period > 0 && n >= 1
    ensures var (s, allowed) := RunWindow(store, key, limit, period, n);
            && allowed == Min(n, limit)
            && Holds(s, key, allowed)
            && allowed <= limit
            && s[key].ttl == period
  {
    var s1 := RequestIsLimited(true, store, key, limit, period, NoFault).0;
    WindowFromCount(s1, key, limit, period, n - 1, 1);
  }

  /** A limit of zero or less still lets the first request of every window through. */
  lemma NonPositiveLimitAllowsOne(store: Store, key: string, limit: int, period: int, n: nat)
    requires key !in store && limit <= 0 && period > 0 && n >= 1
    ensures RunWindow(store, key, limit, period, n).1 == 1
  {
    var s1 := RequestIsLimited(true, store, key, limit, period, NoFault).0;
    WindowFromCount(s1, key, limit, period, n - 1, 1);
  }

  /** After the window expires, the next request is allowed and the counter restarts at one. */
  lemma ExpireStartsNewWindow(store: Store, key: string, limit: int, period: int)
    requires period > 0
    ensures var (s, limited) := RequestIsLimited(true, Expire(store, key), key, limit, period, NoFault);
            !limited && s[key] == Counter(Num(1), period)
  {
  }

  // ---------------------------------------------------------------------------
  // The `limit()` decorator

  /** One entry of the rate-limit table: requests allowed per window, and the window in seconds. */
  datatype Rule = Rule(limit: int, period: int)

  /** What the wrapper does: call the view, or raise `RateLimitExceededError`. */
  datatype Decision = Proceed | Exceeded(message: string)

  const ExceededMessage: string := "Rate Limit Exceeded."

  /** `context.get('identity', {}).get('sourceIp', 'unknown')`. */
  function SourceIp(identity: Option<map<string, string>>): (ip: string)
    ensures identity.Some? && "sourceIp" in identity.value ==> ip == identity.value["sourceIp"]
    ensures !(identity.Some? && "sourceIp" in identity.value) ==> ip == "unknown"
  {
    if identity.Some? && "sourceIp" in identity.value then identity.value["sourceIp"] else "unknown"
  }

  /** The counter key of a caller and an endpoint: both can be read back at their fixed offsets. */
  function ThrottleKey(ip: string, endpoint: string): (k: string)
    ensures |k| == |"throttling-"| + |ip| + 1 + |endpoint|
    ensures k[..|"throttling-"|] == "throttling-"
    ensures k[|"throttling-"|..|"throttling-"| + |ip|] == ip
    ensures k[|"throttling-"| + |ip|] == '-'
    ensures k[|"throttling-"| + |ip| + 1..] == endpoint
  {
    "throttling-" + ip + "-" + endpoint
  }

  /**
   * The wrapper `limit()` puts around a view: with no client, or no rule for the
   * endpoint, the view is called untouched; otherwise the caller's counter for the
   * endpoint decides.
   */
  function Limit(connected: bool, store: Store, rules: map<string, Rule>, endpoint: string,
                 identity: Option<map<string, string>>, fault: Fault): (r: (Store, Decision))
    ensures !connected || endpoint !in rules ==> r == (store, Proceed)
    ensures r.1 == Proceed || r.1 == Exceeded(ExceededMessage)
    ensures r.1.Exceeded? ==> r.0 == store
    ensures var key := ThrottleKey(SourceIp(identity), endpoint);
            && (r.1.Exceeded? <==> connected && endpoint in rules && !fault.GetFails?
                                   && key in store && store[key].value.Num? && store[key].value.n >= rules[endpoint].limit)
            && OnlyTouches(store, r.0, key)
    ensures connected && endpoint in rules ==>
              r.0 == RequestIsLimited(connected, store, ThrottleKey(SourceIp(identity), endpoint),
                                      rules[endpoint].limit, rules[endpoint].period, fault).0
  {
    if !connected then (store, Proceed)
    else if endpoint !in rules then (store, Proceed)
    else
      var rule := rules[endpoint];
      var key := ThrottleKey(SourceIp(identity), endpoint);
      var (s, limited) := RequestIsLimited(connected, store, key, rule.limit, rule.period, fault);
      if limited then (s, Exceeded(ExceededMessage)) else (s, Proceed)
  }

  /**
   * Counter keys are distinct for distinct callers or endpoints, provided no source
   * address contains '-' (IPv4 and IPv6 addresses do not).
   */
  lemma ThrottleKeyInjective(ip1: string, e1: string, ip2: string, e2: string)
    requires '-' !in ip1 && '-' !in ip2
    ensures ThrottleKey(ip1, e1) == ThrottleKey(ip2, e2) ==> ip1 == ip2 && e1 == e2
  {
    if ThrottleKey(ip1, e1) == ThrottleKey(ip2, e2) {
      var p := "throttling-";
      var a := ip1 + "-" + e1;
      var b := ip2 + "-" + e2;
      assert ThrottleKey(ip1, e1) == p + a;
      assert ThrottleKey(ip2, e2) == p + b;
      assert a == b by {
        assert a == (p + a)[|p|..];
        assert b == (p + b)[|p|..];
      }
      var m := if |ip1| <= |ip2| then |ip1| else |ip2|;
      FirstDash(ip1, e1, m);
      FirstDash(ip2, e2, m);
      assert a[m] == b[m];
      assert ip1 == a[..|ip1|] == b[..|ip2|] == ip2;
      assert e1 == a[|ip1| + 1..] == b[|ip2| + 1..] == e2;
    }
  }

  /** In `ip + "-" + e` with no '-' in `ip`, the first '-' is the one after `ip`. */
  lemma FirstDash(ip: string, e: string, i: nat)
    requires '-' !in ip && i <= |ip|
    ensures (ip + "-" + e)[i] == '-' <==> i == |ip|
  {
    if i < |ip| {
      assert (ip + "-" + e)[i] == ip[i];
    }
  }

  /** Without the '-' condition the key is ambiguous: two callers on two endpoints can share a counter. */
  lemma ThrottleKeyCollision()
    ensures ThrottleKey("10.0.0.1-get", "data") == ThrottleKey("10.0.0.1", "get-data")
  {
  }

  /** A request from one caller to one endpoint leaves every other caller's and endpoint's counter alone. */
  lemma OtherCountersUntouched(connected: bool, store: Store, rules: map<string, Rule>, endpoint: string,
                               identity: Option<map<string, string>>, fault: Fault, ip: string, other: string)
    requires '-' !in SourceIp(identity) && '-' !in ip
    requires ip != SourceIp(identity) || other != endpoint
    ensures var key := ThrottleKey(ip, other);
            var s := Limit(connected, store, rules, endpoint, identity, fault).0;
            (key in s <==> key in store) && (key in store ==> s[key] == store[key])
  {
    ThrottleKeyInjective(ip, other, SourceIp(identity), endpoint);
  }

  /** With the deployed table, a caller's 201st call to `fetch_country_data` in one minute is refused. */
  lemma DeployedLimitRefuses(store: Store, ip: string)
    requires Holds(store, ThrottleKey(ip, "fetch_country_data"), 200)
    ensures var rules := map["fetch_country_data" := Rule(200, 60), "get_country_data" := Rule(200, 60),
                             "check_operation_status" := Rule(300, 60)];
            Limit(true, store, rules, "fetch_country_data", Some(map["sourceIp" := ip]), NoFault)
              == (store, Exceeded(ExceededMessage))
  {
  }
}
